=== FILE: README.md ===
# Toy railway core, modelled in Dafny

This project models the engine behind a browser toy railway. The player lays
track pieces (straights, stations, level crossings, slopes, and 45-degree curves,
which may also climb) on a square board. A three-car train then runs round the
closed track while a camera follows it. Before a piece is placed, a translucent
"ghost" previews where it would go.

It models five parts of the repository:

- **Track geometry** (`RailsGeometry`). Covers:
  - the length of a segment and the piece constructors;
  - the pose from which the next piece continues;
  - the slope, area and height checks;
  - the rule for placing a bridge pier under a connection point.
- **Train runner** (`TrainRunner`). One progress distance along the closed track is
  folded into one lap, located segment by segment, and turned into the poses of
  `CAR_COUNT` cars spaced `CAR_SPACING` apart. The pitch is smoothed between ticks.
  The lead car's pose goes to every registered listener.
- **Camera controller** (`CameraController`). Covers:
  - the orbit → front → follow cycle;
  - the drag-controlled look offset, bounded by `PI / 4`;
  - the per-pose update that eases the front camera toward a point just ahead of
    the lead car, turning toward the inside of curves.
- **Maths helpers** (`MathUtil`). Covers `lerp`, `lerp3`, `wrapAngle`, `angleLerp` and
  `snapTo`, plus the JavaScript number operations they rely on:
  - `%` truncates toward zero;
  - `Math.round` rounds halves up;
  - `((v % m) + m) % m` is the fold into `[0, m)`.
- **Ghost preview** (`GhostPreview`). Covers:
  - the placement yaw, kept on eighth turns;
  - the single ghost shown for the current tool;
  - the first rail, which is re-aimed to the placement yaw, and a first curve, which
    turns left or right, whichever exit heading is nearer that yaw.

Supporting modules:

- `Types`: the data model.
- `Constants`: the rail and train constants.
- `Trig`: `Math.PI`, `sin`, `cos`, `atan2` and `hypot`.
- `RealArith`: small lemmas about real arithmetic.

Everything is a pure function of its inputs. Mutable Vue refs become fields of
immutable state records: `TrainState`, `CameraState` and `GhostState`. Each operation
returns the next state.

Two kinds of value are not fixed by the model:

- **Transcendental values.** `PI` is known only to be positive. `Sin`, `Cos` and
  `Atan2` are arbitrary functions. `Hypot` is known only to be non-negative and to
  vanish exactly at the origin.
- **Imported rail constants.** Five constants are imported by the geometry code but
  not defined in `src/constants/rail.ts`: `RAIL_SLOPE_RUN`, `RAIL_SLOPE_RISE`,
  `MAX_RAIL_HEIGHT`, `MIN_PIER_HEIGHT` and `AREA_LIMIT`. They are arbitrary
  positive reals.

So every proved property holds whatever those values are. Segment curves have
length `RAIL_CURVE_RADIUS * CURVE_ANGLE`, which is `PI / 2`.

Three facts about the code that the model keeps:

- `canPlaceRail` has no lower height bound, so a segment below the ground is
  accepted (useRailsGeometry.ts:70-82). `RailsGeometry.CanPlaceRailHasNoFloor`
  states this.
- The front camera's look offsets never decay. Only a drag changes them
  (useCameraController.ts:45-56, 126).
- `src/types/rail.ts` lists only straight, slope and curve pieces. The code also
  handles station, crossing and curve-slope pieces (useTrainRunner.ts:78, 138;
  useRailsGeometry.ts:17, 234-245), and so does `Types.RailType`.

## Model

| member | source | states |
|---|---|---|
| MathUtil.JsRem | src/composables/useTrainRunner.ts:230 | JavaScript `%`: the remainder is smaller in magnitude than the divisor, differs from the dividend by a whole number of divisors, and takes the dividend's sign |
| MathUtil.JsRound | src/utils/math.ts:23 | `Math.round` lands within a half of its argument, halves going up |
| MathUtil.JsRoundNearest | src/utils/math.ts:23 | no integer is closer to `x` than `Math.round(x)` |
| MathUtil.WrapInto | src/composables/useTrainRunner.ts:230 | the double remainder lands in `[0, m)`, congruent to the input modulo `m`, and leaves values already in `[0, m)` alone |
| MathUtil.WrapIntoCongruent | src/composables/useTrainRunner.ts:230-231 | values a whole number of laps apart fold to the same point |
| MathUtil.WrapIntoPeriodic | src/composables/useTrainRunner.ts:230-231 | adding one full period does not change the folded value |
| MathUtil.Lerp | src/utils/math.ts:3 | `lerp` gives `a` at 0, `b` at 1, and stays between them for `t` in `[0, 1]` |
| MathUtil.Lerp3 | src/utils/math.ts:5-9 | `lerp3` is `lerp` on each coordinate; endpoints at 0 and 1 |
| MathUtil.Clamp | src/composables/useCameraController.ts:42 | the clamp result lies in `[lo, hi]`, is the input when already inside, else the bound it crossed |
| MathUtil.ReduceAbove | src/utils/math.ts:13 | the first normalising loop terminates at or below `PI`, above `-PI` when it ran, by whole turns |
| MathUtil.RaiseBelow | src/utils/math.ts:14 | the second normalising loop terminates at or above `-PI`, below `PI` when it ran, by whole turns |
| MathUtil.WrapAngle | src/utils/math.ts:11-16 | `wrapAngle` lands in `[-PI, PI]`, differs from its input by whole turns, and fixes angles already there; an angle above `PI` lands in `(-PI, PI]` and one below `-PI` in `[-PI, PI)`, so an odd number of half turns goes to the same sign it came from |
| MathUtil.AngleLerp | src/utils/math.ts:18-21 | `angleLerp` stays put at `t = 0`, reaches the target up to whole turns at `t = 1`, and moves at most `PI * t` (the short way round) |
| MathUtil.AngleLerpFraction | src/utils/math.ts:18-21 | any `t` moves exactly `t` times the whole step that `t = 1` takes, and that whole step is at most a half turn either way |
| MathUtil.SnapTo | src/utils/math.ts:23 | `snapTo` returns the multiple `k` of the step with `value / step` rounded to `k` (`value / step - 0.5 < k <= value / step + 0.5`, so an exact half rounds up, as `Math.round` does); it is within half a step of the value, and no multiple is closer |
| MathUtil.SnapToNearest | src/utils/math.ts:23 | the rounded multiple is at least as close to the value as any other multiple of the step |
| RailsGeometry.SegmentLength | src/composables/useRailsGeometry.ts:16-19 | a segment's length is non-negative, `PI / 2` for curves, and zero on the straight kinds exactly when the ends coincide in plan |
| RailsGeometry.SegmentLengthIgnoresHeight | src/composables/useRailsGeometry.ts:16-18 | on the straight kinds two segments with the same plan offsets between their ends have the same length, whatever their heights |
| RailsGeometry.SegmentLengthTranslationInvariant | src/composables/useRailsGeometry.ts:16-19 | moving a segment does not change its length |
| RailsGeometry.MakeStraight | src/composables/useRailsGeometry.ts:21-32 | the straight carries the given id, starts at the pose, ends `length` ahead along its heading at the same height, is centred, stores yaw `-theta`, and continues with heading `theta` |
| RailsGeometry.MakeSlope | src/composables/useRailsGeometry.ts:34-48 | the slope ends one run ahead and one rise up (or down), its reference point keeps the start height, and it continues with heading `theta` |
| RailsGeometry.MakeStation | src/composables/useRailsGeometry.ts:221-232 | as for the straight, tagged as a station |
| RailsGeometry.MakeCrossing | src/composables/useRailsGeometry.ts:234-245 | as for the straight, tagged as a level crossing |
| RailsGeometry.MakeLeftCurve | src/composables/useRailsGeometry.ts:179-198 | a left curve starts at the pose, puts its centre and end on the ground, stores yaw `theta`, continues at `theta + PI/4`, and has length `PI / 2` |
| RailsGeometry.MakeRightCurve | src/composables/useRailsGeometry.ts:200-219 | a right curve starts at the pose, puts its centre and end on the ground, stores yaw `theta`, continues at `theta - PI/4`, and has length `PI / 2` |
| RailsGeometry.PoseFromRailEnd | src/composables/useRailsGeometry.ts:247-256 | the continuation pose sits at the end; straight kinds head `-yaw`, curves head `yaw ± PI/4` by hand |
| RailsGeometry.ContinuationJoins | src/composables/useRailsGeometry.ts:247-256 | any piece built from a segment's continuation pose starts exactly at that segment's end |
| RailsGeometry.CanPlaceSlope | src/composables/useRailsGeometry.ts:50-64 | a slope is allowed exactly when both end heights lie between the ground and the maximum height |
| RailsGeometry.CanPlaceSlopeJudgesMakeSlope | src/composables/useRailsGeometry.ts:34-64 | the check judges exactly the heights of the slope `makeSlope` would build, and ignores the heading |
| RailsGeometry.IsWithinArea | src/composables/useRailsGeometry.ts:66-68 | a point is inside the area exactly when both plan coordinates lie within `±AREA_LIMIT` |
| RailsGeometry.CanPlaceRail | src/composables/useRailsGeometry.ts:70-82 | a segment is accepted exactly when both connections and its reference point are inside the area and not above the maximum height |
| RailsGeometry.CanPlaceRailHasNoFloor | src/composables/useRailsGeometry.ts:76-81 | lowering an accepted segment, even underground, keeps it accepted |
| RailsGeometry.ConnectionPoints | src/composables/useRailsGeometry.ts:85-91 | the connection list holds start then end of each segment, in order |
| RailsGeometry.NearestFrom | src/composables/useRailsGeometry.ts:104-120 | the strict-improvement scan ends on the first of the closest points |
| RailsGeometry.NearestConnection | src/composables/useRailsGeometry.ts:103-120 | there is no nearest point exactly when there are no rails; otherwise it is the first closest |
| RailsGeometry.PierCountOk | src/composables/useRailsGeometry.ts:135-136 | the count rule `floor(height / rise) <= 6` holds exactly when `height < 7 * RAIL_SLOPE_RISE` |
| RailsGeometry.PierCountBound | src/composables/useRailsGeometry.ts:134-138 | for every height, at most six whole rises fit below it exactly when it is below seven rises |
| RailsGeometry.PierRotation | src/composables/useRailsGeometry.ts:143-169 | a pier stands across the rail: straight kinds use the continuation heading, curves look at which end was hit, curve slopes use the stored yaw |
| RailsGeometry.CanPlacePier | src/composables/useRailsGeometry.ts:94-177 | each rejection reason and acceptance holds exactly under its distance/height condition at the first nearest connection; an accepted pier carries that point's height, ground position and rotation |
| RailsGeometry.PierFarFromEveryConnectionRejected | src/composables/useRailsGeometry.ts:122-125 | a point farther than 0.1 from every connection is rejected as not at a connection |
| RailsGeometry.PierHeightBoundary | src/composables/useRailsGeometry.ts:127-138 | on a single flat piece a pier is accepted exactly below seven rises, standing on the ground under the point |
| TrainRunner.EaseInOutQuad | src/composables/useTrainRunner.ts:60-62 | the easing maps 0, ½, 1 to themselves, keeps `[0, 1]` in `[0, 1]`, and is below ½ exactly on the first half |
| TrainRunner.EaseMonotone | src/composables/useTrainRunner.ts:60-62 | the easing is non-decreasing on `[0, 1]` |
| TrainRunner.EaseSymmetric | src/composables/useTrainRunner.ts:60-62 | ease-out mirrors ease-in: `ease(1 - t) = 1 - ease(t)` |
| TrainRunner.ChordLength | src/composables/useTrainRunner.ts:88 | the `|| 1` fallback makes the chord positive and equal to `hypot` whenever the ends differ in plan |
| TrainRunner.AlongChord | src/composables/useTrainRunner.ts:89-94 | stepping along the unit direction scaled by the length is plain linear interpolation between the ends |
| TrainRunner.EasedHeight | src/composables/useTrainRunner.ts:121-123 | eased height interpolates the end heights by the eased parameter, plus the car height offset |
| TrainRunner.EaseRate | src/composables/useTrainRunner.ts:129-132 | the central difference of the easing (one-sided at the ends) is never negative on `[0, 1]` |
| TrainRunner.EasedPitch | src/composables/useTrainRunner.ts:127-134 | the pitch is `atan2` of the eased rate times the rise over the run; a level profile gives a zero climb; by `EasedPitchMirrored` the pitch is the same at `t` and `1 - t` |
| TrainRunner.EaseRateSymmetric | src/composables/useTrainRunner.ts:129-132 | the rate of climb is the same at mirrored points of a slope |
| TrainRunner.EasedPitchMirrored | src/composables/useTrainRunner.ts:127-134 | the eased pitch is the same at `t` and `1 - t`, so a car pitches alike the same distance from either end of a slope |
| TrainRunner.SlopePitchMirrored | src/composables/useTrainRunner.ts:162-169 | on a curve slope (these lines) and on a slope (lines 127-134 of the same file) the pose's pitch at `1 - t` equals the pitch at `t` |
| TrainRunner.ArcAt | src/composables/useTrainRunner.ts:140-153 | the direction of travel on a curve is at right angles to the radius, turning anticlockwise about the centre on left curves and clockwise on right ones |
| TrainRunner.ChordPose | src/composables/useTrainRunner.ts:78-101 | on straights, stations and crossings the car moves linearly between the ends, with no roll |
| TrainRunner.SlopePose | src/composables/useTrainRunner.ts:102-137 | on a slope the car moves linearly in plan and along the eased profile in height, with no roll |
| TrainRunner.CurveSlopePose | src/composables/useTrainRunner.ts:138-172 | on a climbing curve the height follows the eased profile, with no roll |
| TrainRunner.CurvePose | src/composables/useTrainRunner.ts:173-192 | on a flat curve the car stays at the start height with no pitch and no roll |
| TrainRunner.GetPoseOnRail | src/composables/useTrainRunner.ts:77-192 | per piece kind: linear, eased or level position as above, and never any roll |
| TrainRunner.StraightPoseEndpoints | src/composables/useTrainRunner.ts:92-95 | on the straight kinds the car sits on the start at `t = 0` and on the end at `t = 1`, raised by the height offset |
| TrainRunner.SlopeHeightProfile | src/composables/useTrainRunner.ts:116-123 | a slope's car height starts and ends at the connection heights and, going up, never drops |
| TrainRunner.TotalRailLength | src/composables/useTrainRunner.ts:46 | the total is the left-to-right sum of the segment lengths: non-negative, zero with no rails, and at least each segment's length |
| TrainRunner.Walk | src/composables/useTrainRunner.ts:234-240 | the walk stops at the first segment whose end reaches the distance, with the distance into it left over |
| TrainRunner.Locate | src/composables/useTrainRunner.ts:234-240 | the located index is the first whose cumulative end is at or beyond `d`, and the remainder is `d` minus the lengths before it |
| TrainRunner.LocateWithinTrack | src/composables/useTrainRunner.ts:234-243 | within one lap the walk never runs past the last segment, and the remainder fits in the segment found |
| TrainRunner.Clamp01 | src/composables/useTrainRunner.ts:242 | the parameter lies in `[0, 1]`, is unchanged when already there, and is 0 below and 1 above |
| TrainRunner.Fraction | src/composables/useTrainRunner.ts:241-242 | the segment parameter lies in `[0, 1]`, times the length it is the remainder, zero before the start, one past the end |
| TrainRunner.SegmentParam | src/composables/useTrainRunner.ts:241-243 | the segment and parameter for a distance: the located segment with its fraction, or the first segment when the walk ran past |
| TrainRunner.SampleAt | src/composables/useTrainRunner.ts:241-243 | a sampled pose is the pose of some track segment at a parameter in `[0, 1]`; within one lap it is the located segment at its fraction |
| TrainRunner.BoundaryMapsToSegmentEnd | src/composables/useTrainRunner.ts:236-242 | a distance exactly at a segment's end belongs to that segment at `t = 1`, not to the next at `t = 0` |
| TrainRunner.IndexOf | src/composables/useTrainRunner.ts:204 | `indexOf` is -1 exactly when absent, and otherwise the first position holding the listener |
| TrainRunner.EmitTrainPose | src/composables/useTrainRunner.ts:209-211 | every listener, in registration order, receives the pose once |
| TrainRunner.InitialPose | src/composables/useTrainRunner.ts:32-35 | the cars at rest stand one spacing apart behind the origin, at car height, facing yaw `PI / 2` |
| TrainRunner.NewRunner | src/composables/useTrainRunner.ts:32-38 | a new runner has travelled nothing, has the consist at rest, and no listeners |
| TrainRunner.Reset | src/composables/useTrainRunner.ts:311-314 | reset puts progress to zero and the cars at rest; listeners stay registered |
| TrainRunner.ResetForgetsRun | src/composables/useTrainRunner.ts:311-314 | a reset depends only on the listeners: it equals a fresh runner keeping them, and a second reset changes nothing |
| TrainRunner.CarTrackPosition | src/composables/useTrainRunner.ts:249-250 | car `i` stands within one lap, `i` spacings behind the lead modulo the track length |
| TrainRunner.ConsistSpacing | src/composables/useTrainRunner.ts:247-250 | each car is exactly one spacing behind the car in front, folded into one lap |
| TrainRunner.SmoothPitch | src/composables/useTrainRunner.ts:266-270 | only the pitch is smoothed: it moves from the previous tick's pitch 0.08 of the way toward the raw pitch; position, yaw and roll are the raw ones; no previous car means no smoothing |
| TrainRunner.Consist | src/composables/useTrainRunner.ts:246-272 | there are `CAR_COUNT` cars, each the smoothed pose sampled at its own track position |
| TrainRunner.AverageSegmentLength | src/composables/useTrainRunner.ts:228 | the average times the number of segments is the total length |
| TrainRunner.AdvanceProgress | src/composables/useTrainRunner.ts:225-231 | the new progress lies within one lap, congruent to the old plus speed × 0.008 × average segment length, and locates inside the track |
| TrainRunner.EmittedPose | src/composables/useTrainRunner.ts:276-279 | the broadcast pose is the lead car's raw pose turned half a turn in yaw |
| TrainRunner.StepTrain | src/composables/useTrainRunner.ts:224-280 | with no track length nothing changes and nobody is told; otherwise progress advances within one lap, every car is placed at its spaced position with smoothed pitch, and every listener gets the lead's turned pose |
| TrainRunner.EmittedMatchesLeadCar | src/composables/useTrainRunner.ts:243-279 | what listeners hear is the lead car as placed (same position, yaw half a turn off, no roll) |
| TrainRunner.Tick | src/composables/useTrainRunner.ts:290-295 | a frame steps the train exactly when it is running and allowed to run, and otherwise changes nothing |
| TrainRunner.AdvanceProgressLapPeriodic | src/composables/useTrainRunner.ts:229-231 | starting a whole lap further on, a step folds to the same progress |
| TrainRunner.StepTrainLapPeriodic | src/composables/useTrainRunner.ts:224-243 | a step depends on the progress only within one lap: a whole lap more gives the same deliveries and, on a track of positive length, the same next state |
| TrainRunner.TickLapPeriodic | src/composables/useTrainRunner.ts:229-231 | a frame depends on the progress only within one lap: a whole lap more gives the same next state and the same deliveries |
| TrainRunner.FullLapSamePose | src/composables/useTrainRunner.ts:230-243 | a distance one whole lap further samples the same pose |
| TrainRunner.OnTrainPose | src/composables/useTrainRunner.ts:199-202 | subscribing appends the listener and changes nothing else |
| TrainRunner.OffTrainPose | src/composables/useTrainRunner.ts:203-206 | unsubscribing removes the first registration of the listener, keeping the others in order, and otherwise changes nothing |
| TrainRunner.SubscribeThenUnsubscribe | src/composables/useTrainRunner.ts:199-207 | unsubscribing a newly subscribed listener restores the listener list |
| CameraController.InitialCamera | src/composables/useCameraController.ts:7-15 | the camera starts orbiting from its home pose with no look offset |
| CameraController.SetMode | src/composables/useCameraController.ts:130-135 | setting the mode to orbit snaps the camera to its home pose; other modes keep the pose |
| CameraController.NextMode | src/composables/useCameraController.ts:59-67 | a toggle always changes the mode, and lands on orbit exactly from follow |
| CameraController.ModeCycle | src/composables/useCameraController.ts:59-67 | three toggles visit each of the three modes and return to the start |
| CameraController.ToggleCameraMode | src/composables/useCameraController.ts:59-67 | the toggle moves to the next mode; reaching orbit snaps home, other moves keep the pose; look offset, drag flag and follow target are untouched |
| CameraController.ToggleThriceGoesHome | src/composables/useCameraController.ts:59-67 | three toggles restore the state except that the camera is on its home pose |
| CameraController.ResetToOrbit | src/composables/useCameraController.ts:69-73 | reset gives orbit mode on the home pose and keeps the look offset and follow target |
| CameraController.ResetToOrbitIdempotent | src/composables/useCameraController.ts:69-73 | resetting twice is resetting once |
| CameraController.StartFrontLook | src/composables/useCameraController.ts:45-47 | starting a drag only raises the drag flag |
| CameraController.EndFrontLook | src/composables/useCameraController.ts:54-56 | ending a drag only lowers the drag flag; the offset is kept |
| CameraController.UpdateFrontLook | src/composables/useCameraController.ts:48-53 | a drag moves yaw and pitch offsets by 0.002 per pixel, saturating at `±PI/4`, and changes nothing else |
| CameraController.DragThenOppositeDrag | src/composables/useCameraController.ts:48-53 | a drag and its opposite cancel when neither hits the limit |
| CameraController.CurveAdjustment | src/composables/useCameraController.ts:102-112 | the extra yaw is `+PI/4` exactly on left curves or curve slopes, `-PI/4` exactly on right ones, else zero |
| CameraController.FrontCameraTarget | src/composables/useCameraController.ts:97-100 | the target is 0.85 ahead along the car's heading and 0.15 above it |
| CameraController.HandleTrainPose | src/composables/useCameraController.ts:79-127 | follow with a second car records it; orbit or follow without one ignores the pose; front eases position by 0.18 and pitch by 0.12 toward their targets, turns yaw by 0.12 of the wrapped gap (at most `0.12 PI`), and zeroes roll |
| CameraController.FrontCameraClosesGap | src/composables/useCameraController.ts:118-124 | each front update leaves 82% of the position gap on every axis and 88% of the pitch gap |
| CameraController.LookStaysInBounds | src/composables/useCameraController.ts:42-56 | no camera operation moves the look offset outside `±PI/4` |
| GhostPreview.RailToolNamed | src/composables/useGhostPreview.ts:84-89 | exactly the four rail tools make rail ghosts, each asking the factory for the piece of its own name |
| GhostPreview.InitialGhosts | src/composables/useGhostPreview.ts:33-47 | the preview starts with no pointer, zero yaw and nothing shown |
| GhostPreview.GhostCount | src/composables/useGhostPreview.ts:35-47 | the count is zero exactly when nothing is shown |
| GhostPreview.ClampYawStep | src/composables/useGhostPreview.ts:54-60 | the yaw becomes the eighth-turn multiple (0 to 8 steps) nearest to the angle folded into one turn; an angle exactly half a step between two multiples goes to the upper one, as `Math.round` does |
| GhostPreview.ClampYawStepExact | src/composables/useGhostPreview.ts:54-60 | an eighth-turn multiple below a full turn is left as it is |
| GhostPreview.ClampYawStepFullTurn | src/composables/useGhostPreview.ts:54-60 | a full turn folds to zero |
| GhostPreview.ClampYawStepAt | src/composables/useGhostPreview.ts:54-60 | the `k`-th eighth turn snaps to itself, or to zero at `k = 8` |
| GhostPreview.ClampYawStepSettles | src/composables/useGhostPreview.ts:54-60 | snapping again changes a snapped yaw only by turning `2 PI` into zero |
| GhostPreview.ClampYawStepForward | src/composables/useGhostPreview.ts:63-67 | one step forward from an eighth turn reaches the next, wrapping after seven |
| GhostPreview.ClampYawStepBack | src/composables/useGhostPreview.ts:63-67 | one step back from an eighth turn reaches the previous, wrapping before zero |
| GhostPreview.ClampYawStepPeriodic | src/composables/useGhostPreview.ts:54-60 | a whole turn either way does not change the snapped yaw |
| GhostPreview.RotatePlacement | src/composables/useGhostPreview.ts:63-67 | rotating snaps yaw plus the steps to an eighth turn and refreshes the preview |
| GhostPreview.ResetPlacementRotation | src/composables/useGhostPreview.ts:69-72 | resetting sets yaw to zero, keeps the pointer, and refreshes the preview |
| GhostPreview.HalfSpan | src/composables/useGhostPreview.ts:102 | a re-aimed straight spans a full straight length, other first rails a slope run |
| GhostPreview.Reorient | src/composables/useGhostPreview.ts:99-117 | the first straight, slope or station is turned about its centre: centred, spanning its length ahead along heading `-desired`, continuing at `-desired`, a straight laid flat at centre height, the others keeping end heights |
| GhostPreview.TurnGap | src/composables/useGhostPreview.ts:123-130 | the short-way gap between headings is between 0 and `PI`, zero for equal headings, and differs from their difference (one way or the other) by whole turns |
| GhostPreview.ChooseCurve | src/composables/useGhostPreview.ts:118-135 | the first curve turns left exactly when its exit heading is no farther from the desired yaw than the right one, so the chosen exit is the nearer |
| GhostPreview.FirstRailGhost | src/composables/useGhostPreview.ts:90-139 | the first rail is re-aimed to the placement yaw, or a curve is re-made toward it; other kinds are shown as made |
| GhostPreview.GridPoint | src/composables/useGhostPreview.ts:50-52 | the ghost's point is on the ground at whole-number coordinates, within a half of the pointer; a coordinate exactly half-way goes up, as `Math.round` does |
| GhostPreview.RailGhost | src/composables/useGhostPreview.ts:90-154 | a rail ghost is shown exactly when there is a pointer or it is a follow-on straight; the first rail is re-aimed, a follow-on straight comes from the origin, other follow-on pieces from the pointer |
| GhostPreview.UpdateGhost | src/composables/useGhostPreview.ts:74-187 | at most one ghost, none outside build mode; a rail ghost exactly for a rail tool with a pointer (or a follow-on straight), with the case-by-case rail; tree, building and pier ghosts exactly for their tool with a pointer, on the grid, turned by the yaw |
| GhostPreview.UpdateGhostIdempotent | src/composables/useGhostPreview.ts:74-187 | refreshing the preview twice is refreshing it once |
| GhostPreview.UpdatePointer | src/composables/useGhostPreview.ts:189-192 | moving the pointer records it and refreshes the preview |
| GhostPreview.LatestPointerWins | src/composables/useGhostPreview.ts:189-192 | only the latest pointer position matters |
| GhostPreview.ResetGhosts | src/composables/useGhostPreview.ts:194-200 | reset hides every ghost and forgets the pointer, keeping the yaw |
| GhostPreview.ResetGhostsSettles | src/composables/useGhostPreview.ts:194-200 | a second reset changes nothing, and a refresh after a reset shows no tree, building or pier, and a rail only as the follow-on straight in build mode |
| GhostPreview.ClampYawStepBelowZero | src/composables/useGhostPreview.ts:54-60 | one step below zero snaps to the seventh eighth turn |
| GhostPreview.ClampYawStepBackInside | src/composables/useGhostPreview.ts:54-60 | one step back from the `k`-th eighth turn, `0 < k < 8`, snaps to the `(k - 1)`-th |
| GhostPreview.NoPointerOnlyStraight | src/composables/useGhostPreview.ts:140-186 | without a pointer, the only possible ghost is a follow-on straight in build mode |

## Left out

- Rendering, Vue reactivity plumbing, `requestAnimationFrame` scheduling and unmount cleanup (`start`, `stop`, `onUnmounted`): the model treats one frame as one call of `TrainRunner.Tick`.
- The Vue `watch` on the camera mode: it is modelled as running synchronously inside the operations that change the mode (`CameraController.SetMode`).
- Segment identifiers: the source builds them from `Date.now()` and `Math.random()`. They are parameters here.
- The ghost preview's `createRail` factory: it is a function parameter of `GhostPreview.Scene`. The id a re-made first curve gets is a parameter too.
- Concrete values of `Math.PI`, `Math.sin`, `Math.cos`, `Math.atan2` and `Math.hypot`: they are abstract, so properties that depend on them are left out. These include where on the circle a curve car stands, what yaw a car faces, and the pitch values.
- IEEE floating point: numbers are exact reals. Rounding error, `NaN`, `Infinity` and overflow are not modelled.
- `RAIL_SLOPE_RUN`, `RAIL_SLOPE_RISE`, `MAX_RAIL_HEIGHT`, `MIN_PIER_HEIGHT` and `AREA_LIMIT`: their definitions are not part of this model, so they are arbitrary positive constants.
- The pier rejection messages, which are Japanese strings: they become the tags of `RailsGeometry.PierError`.
- `console.log` calls in the ghost preview, and `getPlacementRotation`, which only reads the yaw.
- `src/stores/storage.ts`, `vite.config.ts` and `src/utils/id.ts` are not part of this model.
- The local copies of `lerp`, `lerp3`, `angleLerp` and `clamp` inside the camera controller, the runner's `angleLerp` and the ghost preview's `norm`: each is the same computation as the `MathUtil` function of that name (`norm` is `WrapAngle`). `snapToGridSize` is `MathUtil.SnapTo`.
- TrainRunner.EasedPitch: states the argument handed to `atan2` (the non-negative eased rate times the rise), not the pitch angle itself, because `atan2` is abstract.
- GhostPreview.Reorient: the source re-aims the first rail by assigning `rotation` and `connections` on the object the factory returned (useGhostPreview.ts:99-117). The model builds a new record instead, so any other holder of that object does not see the change.
- TrainRunner.CurveSlopePose: states only the height and the roll; the plan position on the arc and the yaw depend on the abstract `sin`, `cos` and `atan2`.
- TrainRunner.CurvePose: states only the height, pitch and roll, for the same reason.
- TrainRunner.GetPoseOnRail: says nothing about yaw on any piece kind, or pitch on straights and slopes, because both come from `atan2`.
- CameraController.HandleTrainPose: the payload's `railType`, `curveDirection` and `secondCarPosition` are optional strings and vectors, as in the source. Which pieces a caller actually reports is not modelled.

=== FILE: camera_controller.dfy ===
/** The camera controller (src/composables/useCameraController.ts): three
    camera modes cycled by a toggle, a drag-controlled look offset for the
    front camera, and the per-pose update that eases the front camera toward
    a point just ahead of the lead car. The mode watcher, which snaps the
    camera home whenever the mode becomes orbit, runs synchronously inside
    the operations that change the mode. */
module CameraController {
  import opened RealArith
  import opened Trig
  import opened Types
  import opened MathUtil

  datatype CameraMode = Orbit | Front | Follow

  datatype CameraState = CameraState(
    mode: CameraMode,
    position: Vec3,
    rotation: Vec3,
    lookPitch: real,
    lookYaw: real,
    lookActive: bool,
    followTarget: Vec3)

  /** What a listener is handed: the lead car's pose and, optionally, what it is on. */
  datatype TrainPosePayload = TrainPosePayload(
    position: Vec3,
    rotation: Vec3,
    railType: Option<string>,
    curveDirection: Option<string>,
    secondCarPosition: Option<Vec3>)

  const ORBIT_INITIAL_POSITION: Vec3 := Vec3(15.0, 8.0, 15.0)
  const ORBIT_INITIAL_ROTATION: Vec3 := Vec3(0.0, 0.0, 0.0)
  /** Camera offset in the car's frame; its `y` is added to the car height. */
  const FRONT_OFFSET: Vec3 := Vec3(0.0, 0.15, -0.85)
  const CAM_POS_LERP: real := 0.18
  const CAM_ROT_LERP: real := 0.12
  /** The look offset may turn the view at most this far either way. */
  const MAX_LOOK: real := PI / 4.0
  const LOOK_SENSITIVITY_X: real := 0.002
  const LOOK_SENSITIVITY_Y: real := 0.002
  /** How far the front camera turns toward the inside of a curve. */
  const CURVE_LOOK_AHEAD_ANGLE: real := PI / 4.0

  /** The controller as created: orbiting from its home pose, no look offset. */
  function InitialCamera(): (s: CameraState)
    ensures s.mode == Orbit && s.position == ORBIT_INITIAL_POSITION && s.rotation == ORBIT_INITIAL_ROTATION
    ensures s.lookPitch == 0.0 && s.lookYaw == 0.0 && !s.lookActive
    ensures LookInBounds(s)
  {
    CameraState(Orbit, ORBIT_INITIAL_POSITION, ORBIT_INITIAL_ROTATION, 0.0, 0.0, false, Vec3(0.0, 0.0, 0.0))
  }

  /** The look offsets stay within `MAX_LOOK` of straight ahead. */
  predicate LookInBounds(s: CameraState) {
    -MAX_LOOK <= s.lookYaw <= MAX_LOOK && -MAX_LOOK <= s.lookPitch <= MAX_LOOK
  }

  // ---------------------------------------------------------------------------
  // Modes

  /** The mode watcher: entering orbit puts the camera back on its home pose. */
  function SetMode(s: CameraState, mode: CameraMode): (r: CameraState)
    ensures r.mode == mode
    ensures mode == Orbit ==> r.position == ORBIT_INITIAL_POSITION && r.rotation == ORBIT_INITIAL_ROTATION
    ensures mode != Orbit ==> r.position == s.position && r.rotation == s.rotation
    ensures r.lookPitch == s.lookPitch && r.lookYaw == s.lookYaw && r.lookActive == s.lookActive
    ensures r.followTarget == s.followTarget
  {
    if mode == Orbit then
      s.(mode := mode, position := ORBIT_INITIAL_POSITION, rotation := ORBIT_INITIAL_ROTATION)
    else
      s.(mode := mode)
  }

  /** The mode after a toggle: orbit, front, follow, and round again. */
  function NextMode(m: CameraMode): (n: CameraMode)
    ensures n != m
    ensures n == Orbit <==> m == Follow
  {
    match m
    case Orbit => Front
    case Front => Follow
    case Follow => Orbit
  }

  /** Three toggles visit every mode once and return to the first. */
  lemma ModeCycle(m: CameraMode)
    ensures NextMode(NextMode(NextMode(m))) == m
    ensures {m, NextMode(m), NextMode(NextMode(m))} == {Orbit, Front, Follow}
  {}

  /** `toggleCameraMode`. */
  function ToggleCameraMode(s: CameraState): (r: CameraState)
    ensures r.mode == NextMode(s.mode)
    ensures s.mode == Follow <==> r.mode == Orbit
    ensures r.mode == Orbit ==> r.position == ORBIT_INITIAL_POSITION && r.rotation == ORBIT_INITIAL_ROTATION
    ensures r.mode != Orbit ==> r.position == s.position && r.rotation == s.rotation
    ensures r.lookPitch == s.lookPitch && r.lookYaw == s.lookYaw && r.followTarget == s.followTarget
    ensures r.lookActive == s.lookActive
  {
    var next := if s.mode == Orbit then Front else if s.mode == Front then Follow else Orbit;
    SetMode(s, next)
  }

  /** Three toggles come back to the same mode, having passed through orbit
      once, so the camera ends up on its home pose and nothing else changed. */
  lemma ToggleThriceGoesHome(s: CameraState)
    ensures ToggleCameraMode(ToggleCameraMode(ToggleCameraMode(s)))
         == s.(position := ORBIT_INITIAL_POSITION, rotation := ORBIT_INITIAL_ROTATION)
  {}

  /** `resetToOrbit`. */
  function ResetToOrbit(s: CameraState): (r: CameraState)
    ensures r.mode == Orbit && r.position == ORBIT_INITIAL_POSITION && r.rotation == ORBIT_INITIAL_ROTATION
    ensures r.lookPitch == s.lookPitch && r.lookYaw == s.lookYaw && r.lookActive == s.lookActive
    ensures r.followTarget == s.followTarget
  {
    SetMode(s.(position := ORBIT_INITIAL_POSITION, rotation := ORBIT_INITIAL_ROTATION), Orbit)
  }

  /** Resetting twice is resetting once. */
  lemma ResetToOrbitIdempotent(s: CameraState)
    ensures ResetToOrbit(ResetToOrbit(s)) == ResetToOrbit(s)
  {}

  // ---------------------------------------------------------------------------
  // Look offset

  /** `startFrontLook`. */
  function StartFrontLook(s: CameraState): (r: CameraState)
    ensures r.lookActive && r == s.(lookActive := true)
  {
    s.(lookActive := true)
  }

  /** `endFrontLook`: the offset is kept, only the drag flag drops. */
  function EndFrontLook(s: CameraState): (r: CameraState)
    ensures !r.lookActive && r == s.(lookActive := false)
  {
    s.(lookActive := false)
  }

  /** `updateFrontLook`: a drag of `(dx, dy)` pixels turns the look offset,
      saturating at `MAX_LOOK` either way. The drag flag is not consulted. */
  function UpdateFrontLook(s: CameraState, dx: real, dy: real): (r: CameraState)
    ensures LookInBounds(r)
    ensures -MAX_LOOK <= s.lookYaw + dx * LOOK_SENSITIVITY_X <= MAX_LOOK ==> r.lookYaw == s.lookYaw + dx * LOOK_SENSITIVITY_X
    ensures s.lookYaw + dx * LOOK_SENSITIVITY_X > MAX_LOOK ==> r.lookYaw == MAX_LOOK
    ensures s.lookYaw + dx * LOOK_SENSITIVITY_X < -MAX_LOOK ==> r.lookYaw == -MAX_LOOK
    ensures -MAX_LOOK <= s.lookPitch + dy * LOOK_SENSITIVITY_Y <= MAX_LOOK ==> r.lookPitch == s.lookPitch + dy * LOOK_SENSITIVITY_Y
    ensures s.lookPitch + dy * LOOK_SENSITIVITY_Y > MAX_LOOK ==> r.lookPitch == MAX_LOOK
    ensures s.lookPitch + dy * LOOK_SENSITIVITY_Y < -MAX_LOOK ==> r.lookPitch == -MAX_LOOK
    ensures r == s.(lookYaw := r.lookYaw, lookPitch := r.lookPitch)
  {
    s.(lookYaw := Clamp(s.lookYaw + dx * LOOK_SENSITIVITY_X, -MAX_LOOK, MAX_LOOK),
       lookPitch := Clamp(s.lookPitch + dy * LOOK_SENSITIVITY_Y, -MAX_LOOK, MAX_LOOK))
  }

  /** A drag followed by the opposite drag is undone when neither hit the limit. */
  lemma DragThenOppositeDrag(s: CameraState, dx: real, dy: real)
    requires LookInBounds(s)
    requires -MAX_LOOK <= s.lookYaw + dx * LOOK_SENSITIVITY_X <= MAX_LOOK
    requires -MAX_LOOK <= s.lookPitch + dy * LOOK_SENSITIVITY_Y <= MAX_LOOK
    ensures UpdateFrontLook(UpdateFrontLook(s, dx, dy), -dx, -dy) == s
  {
    var m := UpdateFrontLook(s, dx, dy);
    assert m.lookYaw + (-dx) * LOOK_SENSITIVITY_X == s.lookYaw;
    assert m.lookPitch + (-dy) * LOOK_SENSITIVITY_Y == s.lookPitch;
  }

  // ---------------------------------------------------------------------------
  // Following the train

  /** The extra yaw toward the inside of a curve: left turns look left, right
      turns look right, and anything else adds nothing. */
  function CurveAdjustment(railType: Option<string>, curveDirection: Option<string>): (a: real)
    ensures a == CURVE_LOOK_AHEAD_ANGLE <==>
      (railType == Some("curve") || railType == Some("curve-slope")) && curveDirection == Some("left")
    ensures a == -CURVE_LOOK_AHEAD_ANGLE <==>
      (railType == Some("curve") || railType == Some("curve-slope")) && curveDirection == Some("right")
    ensures a == 0.0 || Abs(a) == CURVE_LOOK_AHEAD_ANGLE
  {
    if railType == Some("curve") || railType == Some("curve-slope") then
      if curveDirection == Some("left") then CURVE_LOOK_AHEAD_ANGLE
      else if curveDirection == Some("right") then -CURVE_LOOK_AHEAD_ANGLE
      else 0.0
    else 0.0
  }

  /** Where the front camera wants to be: `FRONT_OFFSET` turned by the car's
      yaw, i.e. 0.85 along the heading `(-sin yaw, -cos yaw)` and 0.15 up. */
  function FrontCameraTarget(position: Vec3, yaw: real): (p: Vec3)
    ensures p.x == position.x - 0.85 * Sin(yaw)
    ensures p.y == position.y + 0.15
    ensures p.z == position.z - 0.85 * Cos(yaw)
  {
    var ox := FRONT_OFFSET.x * Cos(yaw) - FRONT_OFFSET.z * Sin(yaw);
    var oz := FRONT_OFFSET.x * Sin(yaw) + FRONT_OFFSET.z * Cos(yaw);
    Vec3(position.x - ox, position.y + FRONT_OFFSET.y, position.z + oz)
  }

  /** `handleTrainPose`. */
  function HandleTrainPose(s: CameraState, payload: TrainPosePayload): (r: CameraState)
    ensures s.mode == Follow && payload.secondCarPosition.Some? ==>
      r == s.(followTarget := payload.secondCarPosition.value)
    ensures s.mode == Orbit || (s.mode == Follow && payload.secondCarPosition.None?) ==> r == s
    ensures s.mode == Front ==>
      var target := FrontCameraTarget(payload.position, payload.rotation.y);
      var targetPitch := -payload.rotation.x + s.lookPitch;
      && r == s.(position := r.position, rotation := r.rotation)
      && r.position == Lerp3(s.position, target, CAM_POS_LERP)
      && r.rotation.x == Lerp(s.rotation.x, targetPitch, CAM_ROT_LERP)
      && Abs(r.rotation.y - s.rotation.y) <= PI * CAM_ROT_LERP
      && r.rotation.y - s.rotation.y == CAM_ROT_LERP * WrapAngle(
           payload.rotation.y + s.lookYaw + CurveAdjustment(payload.railType, payload.curveDirection) - s.rotation.y)
      && r.rotation.z == 0.0
  {
    if s.mode == Follow && payload.secondCarPosition.Some? then
      s.(followTarget := payload.secondCarPosition.value)
    else if s.mode != Front then
      s
    else
      var target := FrontCameraTarget(payload.position, payload.rotation.y);
      var targetYaw := payload.rotation.y + s.lookYaw + CurveAdjustment(payload.railType, payload.curveDirection);
      var targetPitch := -payload.rotation.x + s.lookPitch;
      var yaw := AngleLerp(s.rotation.y, targetYaw, CAM_ROT_LERP);
      s.(position := Lerp3(s.position, target, CAM_POS_LERP),
         rotation := Vec3(Lerp(s.rotation.x, targetPitch, CAM_ROT_LERP), yaw, 0.0))
  }

  /** What is left of the way from `a` to `b` after a `Lerp` step of `t`. */
  lemma LerpRemaining(a: real, b: real, t: real)
    ensures b - Lerp(a, b, t) == (1.0 - t) * (b - a)
  {}

  /** Each front-camera update closes 18% of the distance to the target
      position along every axis, and 12% of the pitch gap. */
  lemma FrontCameraClosesGap(s: CameraState, payload: TrainPosePayload)
    requires s.mode == Front
    ensures var target := FrontCameraTarget(payload.position, payload.rotation.y);
      var r := HandleTrainPose(s, payload);
      && target.x - r.position.x == 0.82 * (target.x - s.position.x)
      && target.y - r.position.y == 0.82 * (target.y - s.position.y)
      && target.z - r.position.z == 0.82 * (target.z - s.position.z)
      && (-payload.rotation.x + s.lookPitch) - r.rotation.x == 0.88 * ((-payload.rotation.x + s.lookPitch) - s.rotation.x)
  {
    var target := FrontCameraTarget(payload.position, payload.rotation.y);
    LerpRemaining(s.position.x, target.x, CAM_POS_LERP);
    LerpRemaining(s.position.y, target.y, CAM_POS_LERP);
    LerpRemaining(s.position.z, target.z, CAM_POS_LERP);
    LerpRemaining(s.rotation.x, -payload.rotation.x + s.lookPitch, CAM_ROT_LERP);
  }

  /** No camera operation can push the look offset out of its bounds. */
  lemma LookStaysInBounds(s: CameraState, dx: real, dy: real, payload: TrainPosePayload)
    requires LookInBounds(s)
    ensures LookInBounds(ToggleCameraMode(s))
    ensures LookInBounds(ResetToOrbit(s))
    ensures LookInBounds(StartFrontLook(s))
    ensures LookInBounds(EndFrontLook(s))
    ensures LookInBounds(UpdateFrontLook(s, dx, dy))
    ensures LookInBounds(HandleTrainPose(s, payload))
  {}
}

=== FILE: constants.dfy ===
/** Shared rail and train constants (src/constants/rail.ts, src/constants/train.ts).
    The rail constants that the geometry code imports but whose definitions are
    not part of this model are abstract positive reals. */
module Constants {
  import opened Trig

  // Rail constants with known values.
  const RAIL_STRAIGHT_HALF_LENGTH: real := 1.0
  const RAIL_STRAIGHT_FULL_LENGTH: real := RAIL_STRAIGHT_HALF_LENGTH * 2.0
  /** One curve piece sweeps 45 degrees; eight make a full circle. */
  const CURVE_ANGLE: real := PI / 4.0
  const RAIL_CURVE_RADIUS: real := 2.0

  // Rail constants whose values are not fixed by this model.
  const RAIL_SLOPE_RUN: PosReal
  const RAIL_SLOPE_RISE: PosReal
  const MAX_RAIL_HEIGHT: PosReal
  const MIN_PIER_HEIGHT: PosReal
  const AREA_LIMIT: PosReal

  // Train constants.
  const TRAIN_SCALE: real := 0.3
  const BASE_HEIGHT_OFFSET: real := 1.03
  const HEIGHT_OFFSET: real := BASE_HEIGHT_OFFSET * TRAIN_SCALE
  const CAR_COUNT: nat := 3
  const CAR_LENGTH_WORLD: real := 2.3 * TRAIN_SCALE
  const COUPLER_GAP: real := 0.16
  /** Distance along the track between the centres of neighbouring cars. */
  const CAR_SPACING: real := CAR_LENGTH_WORLD + COUPLER_GAP
}

=== FILE: ghost_preview.dfy ===
/** The placement preview (src/composables/useGhostPreview.ts): from the
    last pointer position, the selected tool and the placement yaw, compute
    the one translucent "ghost" the editor shows, and keep the placement yaw
    on eighth turns. The rail factory the editor passes in is a parameter. */
module GhostPreview {
  import opened RealArith
  import opened Trig
  import opened Constants
  import opened Types
  import opened MathUtil
  import opened RailsGeometry

  /** The tools that make rails, as the rail factory accepts them. */
  datatype RailTool = StraightTool | CurveTool | SlopeTool | StationTool

  /** The rail-making tools by the names the tool palette uses. */
  function RailToolNamed(tool: string): (t: Option<RailTool>)
    ensures t.Some? <==> tool == "straight" || tool == "curve" || tool == "slope" || tool == "station"
    ensures t == Some(StraightTool) <==> tool == "straight"
    ensures t == Some(CurveTool) <==> tool == "curve"
    ensures t == Some(SlopeTool) <==> tool == "slope"
    ensures t == Some(StationTool) <==> tool == "station"
  {
    if tool == "straight" then Some(StraightTool)
    else if tool == "curve" then Some(CurveTool)
    else if tool == "slope" then Some(SlopeTool)
    else if tool == "station" then Some(StationTool)
    else None
  }

  datatype Pointer = Pointer(x: real, z: real)

  datatype GhostTree = GhostTree(position: Vec3, rotation: Vec3)
  datatype GhostBuilding = GhostBuilding(position: Vec3, height: real, color: string, rotation: Vec3)
  datatype GhostPier = GhostPier(position: Vec3, height: real, rotation: Vec3)

  datatype GhostState = GhostState(
    lastPointer: Option<Pointer>,
    placementYaw: real,
    rail: Option<Rail>,
    tree: Option<GhostTree>,
    building: Option<GhostBuilding>,
    pier: Option<GhostPier>)

  /** What the preview reads but does not own: the placed rails, the selected
      tool and game mode, the rail factory, and the id a re-made curve gets. */
  datatype Scene = Scene(
    rails: seq<Rail>,
    selectedTool: string,
    gameMode: string,
    createRail: (real, real, RailTool) -> Rail,
    curveId: string)

  /** One placement-rotation step: an eighth of a turn. */
  const YAW_STEP: real := PI / 4.0
  const GHOST_BUILDING_HEIGHT: real := 1.8
  const GHOST_BUILDING_COLOR: string := "#7FB3D5"
  const GHOST_PIER_HEIGHT: real := 0.7

  /** The preview as created: no pointer, no rotation, nothing shown. */
  function InitialGhosts(): (s: GhostState)
    ensures s.lastPointer.None? && s.placementYaw == 0.0 && NoGhosts(s)
  {
    GhostState(None, 0.0, None, None, None, None)
  }

  predicate NoGhosts(s: GhostState) {
    s.rail.None? && s.tree.None? && s.building.None? && s.pier.None?
  }

  /** The number of ghosts shown. */
  function GhostCount(s: GhostState): (n: nat)
    ensures n == 0 <==> NoGhosts(s)
    ensures n <= 4
  {
    (if s.rail.Some? then 1 else 0) + (if s.tree.Some? then 1 else 0)
    + (if s.building.Some? then 1 else 0) + (if s.pier.Some? then 1 else 0)
  }

  // ---------------------------------------------------------------------------
  // Placement yaw

  /** Two eighth-turn multiples of `YAW_STEP` bracket the snapped yaw's index. */
  lemma SnappedIndexInRange(n: real, r: real)
    requires 0.0 <= n < TWO_PI
    requires Abs(r - n) <= YAW_STEP / 2.0
    requires exists k: int :: r == Multiple(k, YAW_STEP)
    ensures exists k: int :: 0 <= k <= 8 && r == Multiple(k, YAW_STEP)
    ensures 0.0 <= r <= TWO_PI
  {
    var k :| r == Multiple(k, YAW_STEP);
    var q := YAW_STEP;
    assert -q / 2.0 <= r < Multiple(8, q) + q / 2.0;
    assert k >= 0 by {
      if k < 0 {
        MultipleMono(k, -1, q);
        assert false;
      }
    }
    assert k <= 8 by {
      if k > 8 {
        MultipleMono(9, k, q);
        assert false;
      }
    }
    MultipleMono(0, k, q);
    MultipleMono(k, 8, q);
  }

  /** `clampYawStep`: fold the angle into one turn, then round it to the
      nearest eighth turn. A yaw just below a full turn rounds up to `TWO_PI`. */
  function ClampYawStep(rad: real): (r: real)
    ensures exists k: int :: 0 <= k <= 8 && r == Multiple(k, YAW_STEP)
    ensures 0.0 <= r <= TWO_PI
    ensures Abs(r - WrapInto(rad, TWO_PI)) <= YAW_STEP / 2.0
    ensures forall j: int :: Abs(r - WrapInto(rad, TWO_PI)) <= Abs(Multiple(j, YAW_STEP) - WrapInto(rad, TWO_PI))
    ensures Abs(r - WrapInto(rad, TWO_PI)) == YAW_STEP / 2.0 ==> r == WrapInto(rad, TWO_PI) + YAW_STEP / 2.0
  {
    var normalized := WrapInto(rad, TWO_PI);
    var r := SnapTo(normalized, YAW_STEP);
    SnappedIndexInRange(normalized, r);
    r
  }

  /** An eighth-turn multiple inside one turn is left where it is. */
  lemma ClampYawStepExact(k: int)
    requires 0 <= k < 8
    ensures ClampYawStep(Multiple(k, YAW_STEP)) == Multiple(k, YAW_STEP)
  {
    var a := Multiple(k, YAW_STEP);
    MultipleMono(0, k, YAW_STEP);
    MultipleStrictMono(k, 8, YAW_STEP);
    assert WrapInto(a, TWO_PI) == a;
  }

  /** A full turn folds to zero. */
  lemma ClampYawStepFullTurn()
    ensures ClampYawStep(TWO_PI) == 0.0
  {
    assert TWO_PI - 0.0 == Multiple(1, TWO_PI);
    WrapIntoCongruent(TWO_PI, 0.0, TWO_PI);
    assert WrapInto(0.0, TWO_PI) == 0.0;
    assert Multiple(0, YAW_STEP) == 0.0;
  }

  /** Snapping the `k`-th eighth turn: unchanged inside one turn, zero at a full turn. */
  lemma ClampYawStepAt(k: int)
    requires 0 <= k <= 8
    ensures ClampYawStep(Multiple(k, YAW_STEP)) == if k < 8 then Multiple(k, YAW_STEP) else 0.0
  {
    if k < 8 {
      ClampYawStepExact(k);
    } else {
      assert Multiple(k, YAW_STEP) == TWO_PI;
      ClampYawStepFullTurn();
    }
  }

  /** Snapping a snapped yaw changes it only by turning `TWO_PI` into zero. */
  lemma ClampYawStepSettles(rad: real)
    ensures ClampYawStep(rad) < TWO_PI ==> ClampYawStep(ClampYawStep(rad)) == ClampYawStep(rad)
    ensures ClampYawStep(rad) == TWO_PI ==> ClampYawStep(ClampYawStep(rad)) == 0.0
  {
    var r := ClampYawStep(rad);
    var k :| 0 <= k <= 8 && r == Multiple(k, YAW_STEP);
    ClampYawStepAt(k);
    assert Multiple(8, YAW_STEP) == TWO_PI;
    if k < 8 {
      MultipleStrictMono(k, 8, YAW_STEP);
    }
  }

  /** One step forward from the `k`-th eighth turn lands on the next, wrapping after seven. */
  lemma ClampYawStepForward(k: int)
    requires 0 <= k < 8
    ensures ClampYawStep(Multiple(k, YAW_STEP) + YAW_STEP) == Multiple((k + 1) % 8, YAW_STEP)
  {
    MultipleAdd(k, 1, YAW_STEP);
    ClampYawStepAt(k + 1);
  }

  /** Snapping sees only where a yaw falls within one turn. */
  lemma ClampYawStepSameFold(a: real, b: real)
    requires WrapInto(a, TWO_PI) == WrapInto(b, TWO_PI)
    ensures ClampYawStep(a) == ClampYawStep(b)
  {
  }

  /** One eighth turn below zero snaps to the seventh eighth turn. */
  lemma ClampYawStepBelowZero()
    ensures ClampYawStep(-YAW_STEP) == Multiple(7, YAW_STEP)
  {
    var a := -YAW_STEP;
    assert a == Multiple(-1, YAW_STEP);
    MultipleAdd(-1, 8, YAW_STEP);
    assert Multiple(7, YAW_STEP) - a == Multiple(1, TWO_PI);
    WrapIntoCongruent(Multiple(7, YAW_STEP), a, TWO_PI);
    ClampYawStepSameFold(a, Multiple(7, YAW_STEP));
    ClampYawStepExact(7);
  }

  /** One step back from a non-zero eighth turn lands on the previous one. */
  lemma ClampYawStepBackInside(k: int)
    requires 0 < k < 8
    ensures ClampYawStep(Multiple(k, YAW_STEP) - YAW_STEP) == Multiple(k - 1, YAW_STEP)
  {
    MultipleAdd(k, -1, YAW_STEP);
    assert Multiple(k, YAW_STEP) - YAW_STEP == Multiple(k - 1, YAW_STEP);
    ClampYawStepExact(k - 1);
  }

  /** One step back from the `k`-th eighth turn lands on the previous, wrapping before zero. */
  lemma ClampYawStepBack(k: int)
    requires 0 <= k < 8
    ensures ClampYawStep(Multiple(k, YAW_STEP) - YAW_STEP) == Multiple((k + 7) % 8, YAW_STEP)
  {
    if k > 0 {
      ClampYawStepBackInside(k);
      assert (k + 7) % 8 == k - 1;
    } else {
      assert Multiple(k, YAW_STEP) - YAW_STEP == -YAW_STEP;
      assert (k + 7) % 8 == 7;
      ClampYawStepBelowZero();
    }
  }

  /** A whole turn either way changes nothing after snapping. */
  lemma ClampYawStepPeriodic(rad: real)
    ensures ClampYawStep(rad + TWO_PI) == ClampYawStep(rad)
    ensures ClampYawStep(rad - TWO_PI) == ClampYawStep(rad)
  {
    WrapIntoPeriodic(rad, TWO_PI);
    ClampYawStepSameFold(rad + TWO_PI, rad);
    var below := rad - TWO_PI;
    WrapIntoPeriodic(below, TWO_PI);
    assert below + TWO_PI == rad;
    ClampYawStepSameFold(below, rad);
  }

  /** `rotatePlacement`: turn the placement by whole steps and refresh the preview. */
  function RotatePlacement(s: GhostState, scene: Scene, deltaSteps: real): (r: GhostState)
    ensures r.placementYaw == ClampYawStep(s.placementYaw + deltaSteps * YAW_STEP)
    ensures r == UpdateGhost(s.(placementYaw := r.placementYaw), scene)
  {
    UpdateGhost(s.(placementYaw := ClampYawStep(s.placementYaw + deltaSteps * YAW_STEP)), scene)
  }

  /** `resetPlacementRotation`. */
  function ResetPlacementRotation(s: GhostState, scene: Scene): (r: GhostState)
    ensures r.placementYaw == 0.0 && r.lastPointer == s.lastPointer
    ensures r == UpdateGhost(s.(placementYaw := 0.0), scene)
  {
    UpdateGhost(s.(placementYaw := 0.0), scene)
  }

  // ---------------------------------------------------------------------------
  // The first rail

  /** Half the span of a re-aimed first rail: half a straight, or half a slope's run. */
  function HalfSpan(railType: RailType): (h: real)
    ensures h > 0.0
    ensures railType == Straight ==> 2.0 * h == RAIL_STRAIGHT_FULL_LENGTH
    ensures railType != Straight ==> 2.0 * h == RAIL_SLOPE_RUN
  {
    if railType == Straight then RAIL_STRAIGHT_HALF_LENGTH else RAIL_SLOPE_RUN / 2.0
  }

  /** The first straight, slope or station turned to yaw `desired` about its
      own centre; a straight is laid flat at the centre's height, the others
      keep their end heights. */
  function Reorient(gr: Rail, desired: real): (r: Rail)
    requires gr.railType == Straight || gr.railType == Slope || gr.railType == Station
    ensures r.id == gr.id && r.railType == gr.railType && r.position == gr.position
    ensures r.rotation == Vec3(gr.rotation.x, desired, gr.rotation.z)
    ensures 2.0 * r.position.x == r.connections.start.x + r.connections.end.x
    ensures 2.0 * r.position.z == r.connections.start.z + r.connections.end.z
    ensures EndsAhead(r, Pose(r.connections.start, -desired), 2.0 * HalfSpan(gr.railType))
    ensures PoseFromRailEnd(r).theta == -desired
    ensures gr.railType == Straight ==> r.connections.start.y == gr.position.y && r.connections.end.y == gr.position.y
    ensures gr.railType != Straight ==>
      r.connections.start.y == gr.connections.start.y && r.connections.end.y == gr.connections.end.y
  {
    var c := gr.position;
    var len := HalfSpan(gr.railType);
    var dirX := Cos(-desired);
    var dirZ := Sin(-desired);
    var startY := if gr.railType == Straight then c.y else gr.connections.start.y;
    var endY := if gr.railType == Straight then c.y else gr.connections.end.y;
    assert dirX * len + dirX * len == dirX * (2.0 * len);
    assert dirZ * len + dirZ * len == dirZ * (2.0 * len);
    gr.(rotation := Vec3(gr.rotation.x, desired, gr.rotation.z),
        connections := Connections(
          Vec3(c.x - dirX * len, startY, c.z - dirZ * len),
          Vec3(c.x + dirX * len, endY, c.z + dirZ * len)))
  }

  /** How far, the short way round, heading `b` is from heading `a`. */
  function TurnGap(a: real, b: real): (g: real)
    ensures 0.0 <= g <= PI
    ensures a == b ==> g == 0.0
    ensures Congruent(a - b, g, TWO_PI) || Congruent(b - a, g, TWO_PI)
  {
    var w := WrapAngle(a - b);
    CongruentNeg(a - b, w, TWO_PI);
    Abs(w)
  }

  /** The first curve: re-made from the factory's start and heading, turning
      left or right, whichever exit heading is nearer the desired yaw (left on a tie). */
  function ChooseCurve(gr: Rail, desired: real, id: string): (r: Rail)
    ensures r.id == id
    ensures r.connections.start == gr.connections.start
    ensures r.rotation == Vec3(0.0, gr.rotation.y, 0.0)
    ensures r.railType == Curve(Left) <==>
      TurnGap(desired, gr.rotation.y + CURVE_ANGLE) <= TurnGap(desired, gr.rotation.y - CURVE_ANGLE)
    ensures r.railType == Curve(Left) || r.railType == Curve(Right)
    ensures TurnGap(desired, PoseFromRailEnd(r).theta) <= TurnGap(desired, gr.rotation.y + CURVE_ANGLE)
    ensures TurnGap(desired, PoseFromRailEnd(r).theta) <= TurnGap(desired, gr.rotation.y - CURVE_ANGLE)
  {
    var base := gr.rotation.y;
    var dL := TurnGap(desired, base + CURVE_ANGLE);
    var dR := TurnGap(desired, base - CURVE_ANGLE);
    var pose := Pose(gr.connections.start, base);
    if dL <= dR then
      var r := MakeLeftCurve(pose, id);
      assert PoseFromRailEnd(r).theta == base + CURVE_ANGLE;
      r
    else
      var r := MakeRightCurve(pose, id);
      assert PoseFromRailEnd(r).theta == base - CURVE_ANGLE;
      r
  }

  /** The ghost for the very first rail, aimed at the snapped placement yaw. */
  function FirstRailGhost(gr: Rail, desired: real, id: string): (r: Rail)
    ensures (gr.railType == Straight || gr.railType == Slope || gr.railType == Station) ==>
      r == Reorient(gr, desired) && r.rotation.y == desired
    ensures gr.railType.Curve? ==>
      r == ChooseCurve(gr, desired, id) && r.connections.start == gr.connections.start
    ensures gr.railType == Crossing || gr.railType.CurveSlope? ==> r == gr
  {
    if gr.railType == Straight || gr.railType == Slope || gr.railType == Station then
      Reorient(gr, desired)
    else if gr.railType.Curve? then
      ChooseCurve(gr, desired, id)
    else
      gr
  }

  // ---------------------------------------------------------------------------
  // The preview

  /** A pointer snapped to the unit grid, on the ground. */
  function GridPoint(p: Pointer): (v: Vec3)
    ensures v.y == 0.0
    ensures Abs(v.x - p.x) <= 0.5 && Abs(v.z - p.z) <= 0.5
    ensures (exists i: int :: v.x == Multiple(i, 1.0)) && (exists i: int :: v.z == Multiple(i, 1.0))
    ensures Abs(v.x - p.x) == 0.5 ==> v.x == p.x + 0.5
    ensures Abs(v.z - p.z) == 0.5 ==> v.z == p.z + 0.5
  {
    Vec3(SnapTo(p.x, 1.0), 0.0, SnapTo(p.z, 1.0))
  }

  /** The rail ghost, if any, for a build-mode rail tool. */
  function RailGhost(s: GhostState, scene: Scene, tool: RailTool): (r: Option<Rail>)
    ensures r.Some? <==> s.lastPointer.Some? || (|scene.rails| > 0 && tool == StraightTool)
    ensures |scene.rails| == 0 && s.lastPointer.Some? ==>
      r == Some(FirstRailGhost(scene.createRail(s.lastPointer.value.x, s.lastPointer.value.z, tool),
                               ClampYawStep(s.placementYaw), scene.curveId))
    ensures |scene.rails| > 0 && tool == StraightTool ==> r == Some(scene.createRail(0.0, 0.0, StraightTool))
    ensures |scene.rails| > 0 && tool != StraightTool && s.lastPointer.Some? ==>
      r == Some(scene.createRail(s.lastPointer.value.x, s.lastPointer.value.z, tool))
  {
    if |scene.rails| == 0 then
      if s.lastPointer.None? then None
      else
        var gr := scene.createRail(s.lastPointer.value.x, s.lastPointer.value.z, tool);
        Some(FirstRailGhost(gr, ClampYawStep(s.placementYaw), scene.curveId))
    else if tool == StraightTool then
      Some(scene.createRail(0.0, 0.0, StraightTool))
    else if s.lastPointer.None? then None
    else
      Some(scene.createRail(s.lastPointer.value.x, s.lastPointer.value.z, tool))
  }

  /** `updateGhost`: clear every ghost and show at most one for the current tool. */
  function UpdateGhost(s: GhostState, scene: Scene): (r: GhostState)
    ensures r.lastPointer == s.lastPointer && r.placementYaw == s.placementYaw
    ensures GhostCount(r) <= 1
    ensures scene.gameMode != "build" ==> NoGhosts(r)
    ensures r.rail.Some? <==>
      && scene.gameMode == "build"
      && RailToolNamed(scene.selectedTool).Some?
      && (s.lastPointer.Some? || (|scene.rails| > 0 && scene.selectedTool == "straight"))
    ensures (scene.gameMode == "build" && |scene.rails| == 0 && s.lastPointer.Some?
      && RailToolNamed(scene.selectedTool).Some?) ==>
      var gr := scene.createRail(s.lastPointer.value.x, s.lastPointer.value.z, RailToolNamed(scene.selectedTool).value);
      r.rail == Some(FirstRailGhost(gr, ClampYawStep(s.placementYaw), scene.curveId))
    ensures scene.gameMode == "build" && |scene.rails| > 0 && scene.selectedTool == "straight" ==>
      r.rail == Some(scene.createRail(0.0, 0.0, StraightTool))
    ensures (scene.gameMode == "build" && |scene.rails| > 0 && s.lastPointer.Some?
      && RailToolNamed(scene.selectedTool).Some? && scene.selectedTool != "straight") ==>
      r.rail == Some(scene.createRail(s.lastPointer.value.x, s.lastPointer.value.z, RailToolNamed(scene.selectedTool).value))
    ensures r.tree.Some? <==> scene.gameMode == "build" && scene.selectedTool == "tree" && s.lastPointer.Some?
    ensures r.tree.Some? ==> r.tree.value == GhostTree(GridPoint(s.lastPointer.value), Vec3(0.0, s.placementYaw, 0.0))
    ensures r.building.Some? <==> scene.gameMode == "build" && scene.selectedTool == "building" && s.lastPointer.Some?
    ensures r.building.Some? ==> r.building.value == GhostBuilding(GridPoint(s.lastPointer.value),
      GHOST_BUILDING_HEIGHT, GHOST_BUILDING_COLOR, Vec3(0.0, s.placementYaw, 0.0))
    ensures r.pier.Some? <==> scene.gameMode == "build" && scene.selectedTool == "pier" && s.lastPointer.Some?
    ensures r.pier.Some? ==> r.pier.value == GhostPier(GridPoint(s.lastPointer.value),
      GHOST_PIER_HEIGHT, Vec3(0.0, s.placementYaw, 0.0))
  {
    var cleared := s.(rail := None, tree := None, building := None, pier := None);
    if scene.gameMode != "build" then cleared
    else
      var railTool := RailToolNamed(scene.selectedTool);
      if railTool.Some? then
        cleared.(rail := RailGhost(s, scene, railTool.value))
      else if s.lastPointer.None? then cleared
      else
        var at := GridPoint(s.lastPointer.value);
        var turned := Vec3(0.0, s.placementYaw, 0.0);
        if scene.selectedTool == "tree" then
          cleared.(tree := Some(GhostTree(at, turned)))
        else if scene.selectedTool == "building" then
          cleared.(building := Some(GhostBuilding(at, GHOST_BUILDING_HEIGHT, GHOST_BUILDING_COLOR, turned)))
        else if scene.selectedTool == "pier" then
          cleared.(pier := Some(GhostPier(at, GHOST_PIER_HEIGHT, turned)))
        else cleared
  }

  /** The preview depends only on the pointer, the yaw and the scene, so
      refreshing it again changes nothing. */
  lemma UpdateGhostIdempotent(s: GhostState, scene: Scene)
    ensures UpdateGhost(UpdateGhost(s, scene), scene) == UpdateGhost(s, scene)
  {}

  /** `updatePointer`: remember the pointer and refresh the preview. */
  function UpdatePointer(s: GhostState, scene: Scene, x: real, z: real): (r: GhostState)
    ensures r.lastPointer == Some(Pointer(x, z)) && r.placementYaw == s.placementYaw
    ensures r == UpdateGhost(s.(lastPointer := Some(Pointer(x, z))), scene)
  {
    UpdateGhost(s.(lastPointer := Some(Pointer(x, z))), scene)
  }

  /** Only the latest pointer position matters. */
  lemma LatestPointerWins(s: GhostState, scene: Scene, x1: real, z1: real, x2: real, z2: real)
    ensures UpdatePointer(UpdatePointer(s, scene, x1, z1), scene, x2, z2) == UpdatePointer(s, scene, x2, z2)
  {}

  /** `resetGhosts`: hide everything and forget the pointer; the yaw is kept. */
  function ResetGhosts(s: GhostState): (r: GhostState)
    ensures NoGhosts(r) && r.lastPointer.None? && r.placementYaw == s.placementYaw
  {
    s.(rail := None, tree := None, building := None, pier := None, lastPointer := None)
  }

  /** Without a pointer nothing but a follow-on straight can be previewed. */
  lemma NoPointerOnlyStraight(s: GhostState, scene: Scene)
    requires s.lastPointer.None?
    ensures UpdateGhost(s, scene).tree.None? && UpdateGhost(s, scene).building.None? && UpdateGhost(s, scene).pier.None?
    ensures UpdateGhost(s, scene).rail.Some? <==>
      scene.gameMode == "build" && scene.selectedTool == "straight" && |scene.rails| > 0
  {}

  /** Resetting twice is resetting once, and refreshing a reset preview shows at
      most the follow-on straight. */
  lemma ResetGhostsSettles(s: GhostState, scene: Scene)
    ensures ResetGhosts(ResetGhosts(s)) == ResetGhosts(s)
    ensures UpdateGhost(ResetGhosts(s), scene).tree.None?
    ensures UpdateGhost(ResetGhosts(s), scene).building.None?
    ensures UpdateGhost(ResetGhosts(s), scene).pier.None?
    ensures UpdateGhost(ResetGhosts(s), scene).rail.Some? <==>
      scene.gameMode == "build" && scene.selectedTool == "straight" && |scene.rails| > 0
  {
    NoPointerOnlyStraight(ResetGhosts(s), scene);
  }
}

=== FILE: math_util.dfy ===
/** Numeric helpers (src/utils/math.ts) together with the JavaScript number
    operations they are built from: `Math.round`, truncating `%`, and the
    angle-normalising `while` loops that the train runner, the camera and the
    ghost preview each carry a copy of. */
module MathUtil {
  import opened RealArith
  import opened Trig
  import opened Types

  // ---------------------------------------------------------------------------
  // Congruence modulo a period

  /** `k` whole periods of length `m`. */
  function Multiple(k: int, m: real): real {
    (k as real) * m
  }

  /** Whole multiples of a non-negative period are ordered like their counts. */
  lemma MultipleMono(i: int, j: int, m: real)
    requires i <= j && m >= 0.0
    ensures Multiple(i, m) <= Multiple(j, m)
  {
    MulLeMono(i as real, j as real, m);
  }

  lemma MultipleStrictMono(i: int, j: int, m: real)
    requires i < j && m > 0.0
    ensures Multiple(i, m) < Multiple(j, m)
  {
    MulLtMono(i as real, j as real, m);
  }

  lemma MultipleAdd(i: int, j: int, m: real)
    ensures Multiple(i, m) + Multiple(j, m) == Multiple(i + j, m)
  {
    assert (i as real) * m + (j as real) * m == (i as real + j as real) * m;
  }

  /** `a` and `b` differ by a whole number of periods `m`. */
  ghost predicate Congruent(a: real, b: real, m: real) {
    exists k: int :: a - b == Multiple(k, m)
  }

  lemma CongruentRefl(a: real, m: real)
    ensures Congruent(a, a, m)
  {
    assert a - a == Multiple(0, m);
  }

  lemma CongruentSymm(a: real, b: real, m: real)
    requires Congruent(a, b, m)
    ensures Congruent(b, a, m)
  {
    var k :| a - b == Multiple(k, m);
    assert b - a == Multiple(-k, m);
  }

  lemma CongruentTrans(a: real, b: real, c: real, m: real)
    requires Congruent(a, b, m) && Congruent(b, c, m)
    ensures Congruent(a, c, m)
  {
    var k :| a - b == Multiple(k, m);
    var j :| b - c == Multiple(j, m);
    assert a - c == Multiple(k + j, m);
  }

  /** Negating both sides keeps the congruence. */
  lemma CongruentNeg(a: real, b: real, m: real)
    requires Congruent(a, b, m)
    ensures Congruent(-a, -b, m)
  {
    var k :| a - b == Multiple(k, m);
    assert -a - -b == Multiple(-k, m);
  }

  /** Shifting one side by `n` periods keeps the congruence. */
  lemma CongruentShift(a: real, b: real, m: real, n: int)
    requires Congruent(a, b, m)
    ensures Congruent(a + Multiple(n, m), b, m)
  {
    var k :| a - b == Multiple(k, m);
    assert a + Multiple(n, m) - b == Multiple(k + n, m);
  }

  /** Two representatives of one class inside a window of width `m` coincide. */
  lemma CongruentInWindow(a: real, b: real, lo: real, m: real)
    requires m > 0.0
    requires lo <= a < lo + m && lo <= b < lo + m
    requires Congruent(a, b, m)
    ensures a == b
  {
    var k :| a - b == Multiple(k, m);
    if k >= 1 {
      MulNonneg(k as real - 1.0, m);
    } else if k <= -1 {
      MulNonneg(-(k as real) - 1.0, m);
    }
  }

  // ---------------------------------------------------------------------------
  // Number operations of JavaScript

  /** Truncation toward zero, the quotient JavaScript's `%` uses. */
  function Trunc(x: real): (n: int)
    ensures Abs(x - n as real) < 1.0
    ensures x >= 0.0 ==> 0 <= n && n as real <= x
    ensures x < 0.0 ==> n <= 0 && x <= n as real
  {
    if x >= 0.0 then x.Floor else -((-x).Floor)
  }

  /** JavaScript's `a % b` on numbers: the remainder of truncated division. */
  function JsRem(a: real, b: real): (r: real)
    requires b != 0.0
    ensures Abs(r) < Abs(b)
    ensures Congruent(a, r, b)
    ensures a >= 0.0 ==> r >= 0.0
    ensures a <= 0.0 ==> r <= 0.0
  {
    var q := a / b;
    var n := Trunc(q);
    JsRemFacts(a, b, q, n);
    a - b * (n as real)
  }

  lemma JsRemFacts(a: real, b: real, q: real, n: int)
    requires b != 0.0 && q == a / b && n == Trunc(q)
    ensures Abs(a - b * (n as real)) < Abs(b)
    ensures Congruent(a, a - b * (n as real), b)
    ensures a >= 0.0 ==> a - b * (n as real) >= 0.0
    ensures a <= 0.0 ==> a - b * (n as real) <= 0.0
  {
    var f := q - n as real;
    DivMul(a, b);
    assert a == q * b;
    assert a - b * (n as real) == b * f;
    AbsScaleBelowOne(b, f);
    if a >= 0.0 {
      if b > 0.0 {
        assert q >= 0.0 by { if q < 0.0 { MulLtMono(q, 0.0, b); assert false; } }
        MulNonneg(b, f);
      } else {
        assert q <= 0.0 by { if q > 0.0 { MulLtMono(0.0, q, -b); assert false; } }
        MulNonneg(-b, -f);
      }
    }
    if a <= 0.0 {
      if b > 0.0 {
        assert q <= 0.0 by { if q > 0.0 { MulLtMono(0.0, q, b); assert false; } }
        MulNonneg(b, -f);
      } else {
        assert q >= 0.0 by { if q < 0.0 { MulLtMono(q, 0.0, -b); assert false; } }
        MulNonneg(-b, f);
      }
    }
    assert a - (a - b * (n as real)) == Multiple(n, b);
  }

  /** `Math.round`: the nearest integer, halves rounding up. */
  function JsRound(x: real): (n: int)
    ensures x - 0.5 < n as real <= x + 0.5
  {
    (x + 0.5).Floor
  }

  /** No integer is closer to `x` than `JsRound(x)`. */
  lemma JsRoundNearest(x: real, j: int)
    ensures Abs(JsRound(x) as real - x) <= Abs(j as real - x)
  {
    var n := JsRound(x);
    if j >= n + 1 {
      assert j as real - x >= 0.5;
    } else if j <= n - 1 {
      assert x - j as real >= 0.5;
    }
  }

  /** The double modulo `((v % m) + m) % m` that folds `v` into `[0, m)`. */
  function WrapInto(v: real, m: real): (r: real)
    requires m > 0.0
    ensures 0.0 <= r < m
    ensures Congruent(v, r, m)
    ensures 0.0 <= v < m ==> r == v
  {
    var r1 := JsRem(v, m);
    var r2 := JsRem(r1 + m, m);
    WrapIntoFacts(v, m, r1, r2);
    r2
  }

  lemma WrapIntoFacts(v: real, m: real, r1: real, r2: real)
    requires m > 0.0
    requires r1 == JsRem(v, m) && r2 == JsRem(r1 + m, m)
    ensures 0.0 <= r2 < m
    ensures Congruent(v, r2, m)
    ensures 0.0 <= v < m ==> r2 == v
  {
    CongruentShift(v, r1, m, -1);
    assert v + Multiple(-1, m) - r1 == v - (r1 + m);
    assert Congruent(v, r1 + m, m) by {
      var k :| v + Multiple(-1, m) - r1 == Multiple(k, m);
      assert v - (r1 + m) == Multiple(k, m);
    }
    CongruentTrans(v, r1 + m, r2, m);
    WrapIntoRange(r1, r2, m);
    if 0.0 <= v < m {
      CongruentInWindow(v, r2, 0.0, m);
    }
  }

  /** The second `%` of `WrapInto` lands in `[0, m)` once the first is in `(-m, m)`. */
  lemma WrapIntoRange(r1: real, r2: real, m: real)
    requires m > 0.0
    requires Abs(r1) < m
    requires r2 == JsRem(r1 + m, m)
    ensures 0.0 <= r2 < m
  {
    assert r1 + m > 0.0;
    assert Abs(r2) < Abs(m);
  }

  /** Any two congruent values fold to the same representative. */
  lemma WrapIntoCongruent(a: real, b: real, m: real)
    requires m > 0.0
    requires Congruent(a, b, m)
    ensures WrapInto(a, m) == WrapInto(b, m)
  {
    var ra, rb := WrapInto(a, m), WrapInto(b, m);
    CongruentSymm(a, ra, m);
    CongruentTrans(ra, a, b, m);
    CongruentTrans(ra, b, rb, m);
    CongruentInWindow(ra, rb, 0.0, m);
  }

  /** Adding one full period does not change the folded value. */
  lemma WrapIntoPeriodic(v: real, m: real)
    requires m > 0.0
    ensures WrapInto(v + m, m) == WrapInto(v, m)
  {
    assert v + m - v == Multiple(1, m);
    WrapIntoCongruent(v + m, v, m);
  }

  // ---------------------------------------------------------------------------
  // src/utils/math.ts

  /** `lerp(a, b, t) = a + (b - a) * t`. */
  function Lerp(a: real, b: real, t: real): (r: real)
    ensures t == 0.0 ==> r == a
    ensures t == 1.0 ==> r == b
    ensures 0.0 <= t <= 1.0 && a <= b ==> a <= r <= b
    ensures 0.0 <= t <= 1.0 && b <= a ==> b <= r <= a
  {
    var d := b - a;
    assert t == 0.0 ==> d * t == 0.0;
    assert t == 1.0 ==> d * t == d;
    if 0.0 <= t <= 1.0 then
      ScaleUnit(d, t);
      a + d * t
    else
      a + d * t
  }

  /** `lerp3`: `Lerp` on each coordinate. */
  function Lerp3(a: Vec3, b: Vec3, t: real): (r: Vec3)
    ensures r.x == Lerp(a.x, b.x, t) && r.y == Lerp(a.y, b.y, t) && r.z == Lerp(a.z, b.z, t)
    ensures t == 0.0 ==> r == a
    ensures t == 1.0 ==> r == b
  {
    Vec3(Lerp(a.x, b.x, t), Lerp(a.y, b.y, t), Lerp(a.z, b.z, t))
  }

  /** `Math.min(max, Math.max(min, v))`. */
  function Clamp(v: real, lo: real, hi: real): (r: real)
    requires lo <= hi
    ensures lo <= r <= hi
    ensures lo <= v <= hi ==> r == v
    ensures v < lo ==> r == lo
    ensures v > hi ==> r == hi
  {
    if hi < (if lo > v then lo else v) then hi else (if lo > v then lo else v)
  }

  /** How many times the first normalising loop of `wrapAngle` still has to run. */
  ghost function TurnsAbove(x: real): nat {
    if x > PI then ((x - PI) / TWO_PI).Floor + 1 else 0
  }

  /** `while (x > Math.PI) x -= Math.PI * 2`. */
  function ReduceAbove(x: real): (r: real)
    ensures r <= PI
    ensures x <= PI ==> r == x
    ensures x > PI ==> r > -PI
    ensures Congruent(x, r, TWO_PI)
    decreases TurnsAbove(x)
  {
    if x > PI then
      DivShift(x - PI, TWO_PI);
      var r := ReduceAbove(x - TWO_PI);
      assert x - TWO_PI > PI ==> r > -PI;
      CongruentShift(x - TWO_PI, r, TWO_PI, 1);
      r
    else
      CongruentRefl(x, TWO_PI);
      x
  }

  /** How many times the second normalising loop of `wrapAngle` still has to run. */
  ghost function TurnsBelow(x: real): nat {
    if x < -PI then ((-PI - x) / TWO_PI).Floor + 1 else 0
  }

  /** `while (x < -Math.PI) x += Math.PI * 2`. */
  function RaiseBelow(x: real): (r: real)
    ensures r >= -PI
    ensures x >= -PI ==> r == x
    ensures x < -PI ==> r < PI
    ensures Congruent(x, r, TWO_PI)
    decreases TurnsBelow(x)
  {
    if x < -PI then
      DivShift(-PI - x, TWO_PI);
      var r := RaiseBelow(x + TWO_PI);
      CongruentShift(x + TWO_PI, r, TWO_PI, -1);
      assert x + TWO_PI + Multiple(-1, TWO_PI) == x;
      r
    else
      CongruentRefl(x, TWO_PI);
      x
  }

  /** `wrapAngle`: brings an angle into `[-PI, PI]` by whole turns. */
  function WrapAngle(rad: real): (r: real)
    ensures -PI <= r <= PI
    ensures Congruent(rad, r, TWO_PI)
    ensures -PI <= rad <= PI ==> r == rad
    ensures rad > PI ==> r > -PI
    ensures rad < -PI ==> r < PI
  {
    var a := ReduceAbove(rad);
    var b := RaiseBelow(a);
    CongruentTrans(rad, a, b, TWO_PI);
    b
  }

  /** `angleLerp`: moves `current` the fraction `t` of the short way round to `target`. */
  function AngleLerp(current: real, target: real, t: real): (r: real)
    ensures t == 0.0 ==> r == current
    ensures t == 1.0 ==> Congruent(r, target, TWO_PI)
    ensures 0.0 <= t <= 1.0 ==> Abs(r - current) <= PI * t
  {
    var delta := WrapAngle(target - current);
    AngleLerpFacts(current, target, t, delta);
    current + delta * t
  }

  /** Every `t` moves the same fraction of the one whole short-way step that
      `t = 1` takes. */
  lemma AngleLerpFraction(current: real, target: real, t: real)
    ensures AngleLerp(current, target, t) - current == t * (AngleLerp(current, target, 1.0) - current)
    ensures -PI <= AngleLerp(current, target, 1.0) - current <= PI
  {
    var delta := WrapAngle(target - current);
    assert AngleLerp(current, target, 1.0) - current == delta;
    assert AngleLerp(current, target, t) - current == delta * t;
  }

  lemma AngleLerpFacts(current: real, target: real, t: real, delta: real)
    requires delta == WrapAngle(target - current)
    ensures t == 1.0 ==> Congruent(current + delta * t, target, TWO_PI)
    ensures 0.0 <= t <= 1.0 ==> Abs(current + delta * t - current) <= PI * t
  {
    if t == 1.0 {
      AngleLerpArrives(current, target, delta);
    }
    if 0.0 <= t <= 1.0 {
      AngleLerpStep(current, delta, t);
    }
  }

  /** The whole short-way step ends on `target` up to whole turns. */
  lemma AngleLerpArrives(current: real, target: real, delta: real)
    requires delta == WrapAngle(target - current)
    ensures Congruent(current + delta * 1.0, target, TWO_PI)
  {
    var k :| target - current - delta == Multiple(k, TWO_PI);
    assert current + delta * 1.0 - target == Multiple(-k, TWO_PI);
  }

  /** A fraction `t` of a step of at most `PI` moves at most `PI * t`. */
  lemma AngleLerpStep(current: real, delta: real, t: real)
    requires -PI <= delta <= PI
    requires 0.0 <= t <= 1.0
    ensures Abs(current + delta * t - current) <= PI * t
  {
    assert current + delta * t - current == delta * t;
    AbsMul(delta, t);
    MulLeMono(Abs(delta), PI, t);
  }

  /** `snapTo`: the multiple of `step` nearest to `value`; on an exact half the
      quotient `value / step` is rounded up, as `Math.round` does. */
  function SnapTo(value: real, step: real): (r: real)
    requires step != 0.0
    ensures Abs(r - value) <= Abs(step) / 2.0
    ensures forall j: int :: Abs(r - value) <= Abs(Multiple(j, step) - value)
    ensures exists k: int :: r == Multiple(k, step) && value / step - 0.5 < k as real <= value / step + 0.5
    ensures step > 0.0 && Abs(r - value) == step / 2.0 ==> r == value + step / 2.0
  {
    var n := JsRound(value / step);
    SnapToFacts(value, step);
    assert n as real * step == Multiple(n, step);
    if step > 0.0 then SnapToTieUp(value, step); n as real * step
    else n as real * step
  }

  /** With a positive step, the rounded multiple is never a half step below
      the value, so an exact half goes up. */
  lemma SnapToTieUp(value: real, step: real)
    requires step > 0.0
    ensures Multiple(JsRound(value / step), step) - value > -step / 2.0
  {
    var q := value / step;
    var n := JsRound(q);
    MultipleOffset(value, step, n);
    MulLtMono(-0.5, n as real - q, step);
  }

  /** A multiple of `step` minus `value`, in units of the step. */
  lemma MultipleOffset(value: real, step: real, k: int)
    requires step != 0.0
    ensures Multiple(k, step) - value == (k as real - value / step) * step
  {
    var q := value / step;
    DivMul(value, step);
    assert (k as real - q) * step == (k as real) * step - q * step;
  }

  lemma SnapToFacts(value: real, step: real)
    requires step != 0.0
    ensures Abs(Multiple(JsRound(value / step), step) - value) <= Abs(step) / 2.0
    ensures forall j: int :: Abs(Multiple(JsRound(value / step), step) - value) <= Abs(Multiple(j, step) - value)
  {
    var n := JsRound(value / step);
    SnapToWithinHalf(value, step);
    forall j: int
      ensures Abs(Multiple(n, step) - value) <= Abs(Multiple(j, step) - value)
    {
      SnapToNearest(value, step, j);
    }
  }

  /** The rounded multiple is at most half a step from the value. */
  lemma SnapToWithinHalf(value: real, step: real)
    requires step != 0.0
    ensures Abs(Multiple(JsRound(value / step), step) - value) <= Abs(step) / 2.0
  {
    var q := value / step;
    var n := JsRound(q);
    MultipleOffset(value, step, n);
    AbsScaleHalf(n as real - q, step);
  }

  lemma SnapToNearest(value: real, step: real, j: int)
    requires step != 0.0
    ensures Abs(Multiple(JsRound(value / step), step) - value) <= Abs(Multiple(j, step) - value)
  {
    var q := value / step;
    var n := JsRound(q);
    DivMul(value, step);
    JsRoundNearest(q, j);
    CloserMultiple(q, step, n, j, value);
  }

  /** Multiples of `step` keep the order of their indices' distances to `q`. */
  lemma CloserMultiple(q: real, step: real, n: int, j: int, value: real)
    requires Abs(n as real - q) <= Abs(j as real - q)
    requires value == q * step
    ensures Abs(Multiple(n, step) - value) <= Abs(Multiple(j, step) - value)
  {
    assert Multiple(n, step) - value == (n as real - q) * step;
    assert Multiple(j, step) - value == (j as real - q) * step;
    AbsScaleLe(n as real - q, j as real - q, step);
  }
}

=== FILE: rails_geometry.dfy ===
/** Track geometry (src/composables/useRailsGeometry.ts): segment length,
    the piece constructors, placement checks, the pose from which building
    continues, and the pier placement rule. Every function is pure; segment
    identifiers, which the source draws from the clock and a random number,
    are parameters. */
module RailsGeometry {
  import opened RealArith
  import opened Trig
  import opened Constants
  import opened Types

  // ---------------------------------------------------------------------------
  // Length

  /** Arc length of a segment: the horizontal chord for the straight family,
      a fixed 45-degree arc for curves. */
  function SegmentLength(r: Rail): (len: real)
    ensures len >= 0.0
    ensures r.railType.IsCurveFamily() ==> len == PI / 2.0
    ensures r.railType.IsStraightFamily() ==>
      (len == 0.0 <==> r.connections.start.x == r.connections.end.x && r.connections.start.z == r.connections.end.z)
  {
    if r.railType.IsStraightFamily() then
      Hypot(r.connections.end.x - r.connections.start.x, r.connections.end.z - r.connections.start.z)
    else
      RAIL_CURVE_RADIUS * CURVE_ANGLE
  }

  /** The same segment moved by `d`. */
  function Translate(r: Rail, d: Vec3): Rail {
    var c := r.connections;
    r.(position := Add(r.position, d),
       connections := Connections(Add(c.start, d), Add(c.end, d)))
  }

  function Add(a: Vec3, b: Vec3): Vec3 {
    Vec3(a.x + b.x, a.y + b.y, a.z + b.z)
  }

  /** Moving a segment leaves its length unchanged. */
  lemma SegmentLengthTranslationInvariant(r: Rail, d: Vec3)
    ensures SegmentLength(Translate(r, d)) == SegmentLength(r)
  {
    var c := r.connections;
    assert (c.end.x + d.x) - (c.start.x + d.x) == c.end.x - c.start.x;
    assert (c.end.z + d.z) - (c.start.z + d.z) == c.end.z - c.start.z;
  }

  /** On the straight kinds only the plan offsets between the ends matter:
      heights, the reference point and the rotation play no part. */
  lemma SegmentLengthIgnoresHeight(r1: Rail, r2: Rail)
    requires r1.railType.IsStraightFamily() && r2.railType.IsStraightFamily()
    requires r1.connections.end.x - r1.connections.start.x == r2.connections.end.x - r2.connections.start.x
    requires r1.connections.end.z - r1.connections.start.z == r2.connections.end.z - r2.connections.start.z
    ensures SegmentLength(r1) == SegmentLength(r2)
  {}

  // ---------------------------------------------------------------------------
  // Constructors

  /** The signed height change of a slope piece. */
  function SlopeRise(ascending: bool): real {
    if ascending then RAIL_SLOPE_RISE else -(RAIL_SLOPE_RISE as real)
  }

  /** `position` lies halfway between the two connections in the ground plane,
      at the height of the start. */
  ghost predicate CentredAtStartHeight(r: Rail) {
    var c := r.connections;
    && 2.0 * r.position.x == c.start.x + c.end.x
    && 2.0 * r.position.z == c.start.z + c.end.z
    && r.position.y == c.start.y
  }

  /** The end lies `run` ahead of `pose` along its heading. */
  ghost predicate EndsAhead(r: Rail, pose: Pose, run: real) {
    && r.connections.end.x == pose.point.x + Cos(pose.theta) * run
    && r.connections.end.z == pose.point.z + Sin(pose.theta) * run
  }

  /** The geometry `makeStraight`, `makeStation` and `makeCrossing` share. */
  function MakeStraightLike(railType: RailType, pose: Pose, length: real, id: string): (r: Rail)
    requires railType == Straight || railType == Station || railType == Crossing
    ensures r.id == id && r.railType == railType
    ensures r.connections.start == pose.point
    ensures r.connections.end.y == pose.point.y
    ensures EndsAhead(r, pose, length)
    ensures CentredAtStartHeight(r)
    ensures r.rotation == Vec3(0.0, -pose.theta, 0.0)
    ensures PoseFromRailEnd(r) == Pose(r.connections.end, pose.theta)
  {
    var start := pose.point;
    var end := Vec3(start.x + Cos(pose.theta) * length, start.y, start.z + Sin(pose.theta) * length);
    var mid := Vec3((start.x + end.x) / 2.0, start.y, (start.z + end.z) / 2.0);
    Rail(id, railType, mid, Vec3(0.0, -pose.theta, 0.0), Connections(start, end))
  }

  /** `makeStraight`; the source's default length is `RAIL_STRAIGHT_FULL_LENGTH`. */
  function MakeStraight(pose: Pose, length: real, id: string): (r: Rail)
    ensures r.id == id && r.railType == Straight
    ensures r.connections.start == pose.point && r.connections.end.y == pose.point.y
    ensures EndsAhead(r, pose, length) && CentredAtStartHeight(r)
    ensures r.rotation == Vec3(0.0, -pose.theta, 0.0)
    ensures PoseFromRailEnd(r) == Pose(r.connections.end, pose.theta)
  {
    MakeStraightLike(Straight, pose, length, id)
  }

  /** `makeStation`: a straight piece tagged as a station. */
  function MakeStation(pose: Pose, length: real, id: string): (r: Rail)
    ensures r.id == id && r.railType == Station
    ensures r.connections.start == pose.point && r.connections.end.y == pose.point.y
    ensures EndsAhead(r, pose, length) && CentredAtStartHeight(r)
    ensures r.rotation == Vec3(0.0, -pose.theta, 0.0)
    ensures PoseFromRailEnd(r) == Pose(r.connections.end, pose.theta)
  {
    MakeStraightLike(Station, pose, length, id)
  }

  /** `makeCrossing`: a straight piece tagged as a level crossing. */
  function MakeCrossing(pose: Pose, length: real, id: string): (r: Rail)
    ensures r.id == id && r.railType == Crossing
    ensures r.connections.start == pose.point && r.connections.end.y == pose.point.y
    ensures EndsAhead(r, pose, length) && CentredAtStartHeight(r)
    ensures r.rotation == Vec3(0.0, -pose.theta, 0.0)
    ensures PoseFromRailEnd(r) == Pose(r.connections.end, pose.theta)
  {
    MakeStraightLike(Crossing, pose, length, id)
  }

  /** `makeSlope`: one run forward and one rise up (or down). The reference
      point keeps the start height rather than the average height. */
  function MakeSlope(pose: Pose, ascending: bool, id: string): (r: Rail)
    ensures r.id == id && r.railType == Slope
    ensures r.connections.start == pose.point
    ensures ascending ==> r.connections.end.y == pose.point.y + RAIL_SLOPE_RISE
    ensures !ascending ==> r.connections.end.y == pose.point.y - RAIL_SLOPE_RISE
    ensures EndsAhead(r, pose, RAIL_SLOPE_RUN) && CentredAtStartHeight(r)
    ensures r.rotation == Vec3(0.0, -pose.theta, 0.0)
    ensures PoseFromRailEnd(r) == Pose(r.connections.end, pose.theta)
  {
    var start := pose.point;
    var dirx := Cos(pose.theta);
    var dirz := Sin(pose.theta);
    var rise := SlopeRise(ascending);
    var end := Vec3(start.x + dirx * RAIL_SLOPE_RUN, start.y + rise, start.z + dirz * RAIL_SLOPE_RUN);
    var mid := Vec3((start.x + end.x) / 2.0, start.y, (start.z + end.z) / 2.0);
    Rail(id, Slope, mid, Vec3(0.0, -pose.theta, 0.0), Connections(start, end))
  }

  /** `makeLeftCurve`: a quarter of a half turn to the left around a centre one
      radius to the left of the pose. Centre and end are put on the ground. */
  function MakeLeftCurve(pose: Pose, id: string): (r: Rail)
    ensures r.id == id && r.railType == Curve(Left)
    ensures r.connections.start == pose.point
    ensures r.position.y == 0.0 && r.connections.end.y == 0.0
    ensures r.rotation == Vec3(0.0, pose.theta, 0.0)
    ensures PoseFromRailEnd(r) == Pose(r.connections.end, pose.theta + CURVE_ANGLE)
    ensures SegmentLength(r) == PI / 2.0
  {
    var radius := RAIL_CURVE_RADIUS;
    var cx := pose.point.x - Sin(pose.theta) * radius;
    var cz := pose.point.z + Cos(pose.theta) * radius;
    var end := Vec3(cx + Sin(pose.theta + CURVE_ANGLE) * radius, 0.0, cz - Cos(pose.theta + CURVE_ANGLE) * radius);
    Rail(id, Curve(Left), Vec3(cx, 0.0, cz), Vec3(0.0, pose.theta, 0.0), Connections(pose.point, end))
  }

  /** `makeRightCurve`: the mirror image of `MakeLeftCurve`. */
  function MakeRightCurve(pose: Pose, id: string): (r: Rail)
    ensures r.id == id && r.railType == Curve(Right)
    ensures r.connections.start == pose.point
    ensures r.position.y == 0.0 && r.connections.end.y == 0.0
    ensures r.rotation == Vec3(0.0, pose.theta, 0.0)
    ensures PoseFromRailEnd(r) == Pose(r.connections.end, pose.theta - CURVE_ANGLE)
    ensures SegmentLength(r) == PI / 2.0
  {
    var radius := RAIL_CURVE_RADIUS;
    var cx := pose.point.x + Sin(pose.theta) * radius;
    var cz := pose.point.z - Cos(pose.theta) * radius;
    var end := Vec3(cx - Sin(pose.theta - CURVE_ANGLE) * radius, 0.0, cz + Cos(pose.theta - CURVE_ANGLE) * radius);
    Rail(id, Curve(Right), Vec3(cx, 0.0, cz), Vec3(0.0, pose.theta, 0.0), Connections(pose.point, end))
  }

  // ---------------------------------------------------------------------------
  // Continuation

  /** `poseFromRailEnd`: where and in which heading the next piece starts. */
  function PoseFromRailEnd(r: Rail): (p: Pose)
    ensures p.point == r.connections.end
    ensures r.railType.IsStraightFamily() ==> p.theta == -r.rotation.y
    ensures r.railType.IsCurveFamily() && r.railType.direction == Left ==> p.theta == r.rotation.y + CURVE_ANGLE
    ensures r.railType.IsCurveFamily() && r.railType.direction == Right ==> p.theta == r.rotation.y - CURVE_ANGLE
  {
    var end := r.connections.end;
    if r.railType.IsStraightFamily() then
      Pose(end, -r.rotation.y)
    else
      var base := r.rotation.y;
      Pose(end, if r.railType.direction == Right then base - CURVE_ANGLE else base + CURVE_ANGLE)
  }

  /** Building from the continuation pose joins the new piece to the old one. */
  lemma ContinuationJoins(r: Rail, id: string, length: real, ascending: bool)
    ensures MakeStraight(PoseFromRailEnd(r), length, id).connections.start == r.connections.end
    ensures MakeStation(PoseFromRailEnd(r), length, id).connections.start == r.connections.end
    ensures MakeCrossing(PoseFromRailEnd(r), length, id).connections.start == r.connections.end
    ensures MakeSlope(PoseFromRailEnd(r), ascending, id).connections.start == r.connections.end
    ensures MakeLeftCurve(PoseFromRailEnd(r), id).connections.start == r.connections.end
    ensures MakeRightCurve(PoseFromRailEnd(r), id).connections.start == r.connections.end
  {}

  // ---------------------------------------------------------------------------
  // Placement checks

  /** `canPlaceSlope`: both ends of the slope stay between the ground and the
      maximum rail height. */
  function CanPlaceSlope(pose: Pose, ascending: bool): (ok: bool)
    ensures ok <==>
      && 0.0 <= pose.point.y <= MAX_RAIL_HEIGHT
      && 0.0 <= pose.point.y + SlopeRise(ascending) <= MAX_RAIL_HEIGHT
  {
    var start := pose.point;
    var dirx := Cos(pose.theta);
    var dirz := Sin(pose.theta);
    var rise := SlopeRise(ascending);
    var end := Vec3(start.x + dirx * RAIL_SLOPE_RUN, start.y + rise, start.z + dirz * RAIL_SLOPE_RUN);
    if start.y < 0.0 || end.y < 0.0 then false
    else if start.y > MAX_RAIL_HEIGHT || end.y > MAX_RAIL_HEIGHT then false
    else true
  }

  /** The check judges exactly the slope `makeSlope` would build, whatever the heading. */
  lemma CanPlaceSlopeJudgesMakeSlope(pose: Pose, ascending: bool, id: string, theta: real)
    ensures var r := MakeSlope(pose, ascending, id);
      CanPlaceSlope(pose, ascending) <==>
        && 0.0 <= r.connections.start.y <= MAX_RAIL_HEIGHT
        && 0.0 <= r.connections.end.y <= MAX_RAIL_HEIGHT
    ensures CanPlaceSlope(Pose(pose.point, theta), ascending) == CanPlaceSlope(pose, ascending)
  {}

  /** `isWithinArea`: inside the square build area (height is not looked at). */
  function IsWithinArea(point: Vec3): (ok: bool)
    ensures ok <==> -(AREA_LIMIT as real) <= point.x <= AREA_LIMIT && -(AREA_LIMIT as real) <= point.z <= AREA_LIMIT
  {
    Abs(point.x) <= AREA_LIMIT && Abs(point.z) <= AREA_LIMIT
  }

  /** Inside the build area and not above the maximum height; there is no floor. */
  ghost predicate InsideBuildVolume(p: Vec3) {
    && -(AREA_LIMIT as real) <= p.x <= AREA_LIMIT
    && -(AREA_LIMIT as real) <= p.z <= AREA_LIMIT
    && p.y <= MAX_RAIL_HEIGHT
  }

  /** `canPlaceRail`: both connections and the reference point are inside the
      build volume. */
  function CanPlaceRail(rail: Rail): (ok: bool)
    ensures ok <==>
      && InsideBuildVolume(rail.connections.start)
      && InsideBuildVolume(rail.connections.end)
      && InsideBuildVolume(rail.position)
  {
    var startInArea := IsWithinArea(rail.connections.start);
    var endInArea := IsWithinArea(rail.connections.end);
    var positionInArea := IsWithinArea(rail.position);
    var startHeightOk := rail.connections.start.y <= MAX_RAIL_HEIGHT;
    var endHeightOk := rail.connections.end.y <= MAX_RAIL_HEIGHT;
    var positionHeightOk := rail.position.y <= MAX_RAIL_HEIGHT;
    startInArea && endInArea && positionInArea && startHeightOk && endHeightOk && positionHeightOk
  }

  /** Lowering an accepted segment, even below ground, keeps it accepted. */
  lemma CanPlaceRailHasNoFloor(rail: Rail, depth: real)
    requires depth >= 0.0
    requires CanPlaceRail(rail)
    ensures CanPlaceRail(Translate(rail, Vec3(0.0, -depth, 0.0)))
  {}

  // ---------------------------------------------------------------------------
  // Piers

  datatype PierError = NotAtConnection | BelowMinimumHeight | AboveMaximumCount

  /** The result of `canPlacePier`; the source's error strings are replaced by tags. */
  datatype PierPlacement =
    | PierRejected(error: PierError)
    | PierAccepted(rotation: real, railHeight: real, correctPosition: Vec3)

  /** Every connection point, in order: start then end of each segment. */
  function ConnectionPoints(rails: seq<Rail>): (pts: seq<Vec3>)
    ensures |pts| == 2 * |rails|
    ensures forall i :: 0 <= i < |rails| ==>
      pts[2 * i] == rails[i].connections.start && pts[2 * i + 1] == rails[i].connections.end
  {
    if |rails| == 0 then []
    else
      var rest := ConnectionPoints(rails[1..]);
      var pts := [rails[0].connections.start, rails[0].connections.end] + rest;
      assert forall i :: 1 <= i < |rails| ==> rails[i] == rails[1..][i - 1];
      pts
  }

  /** Horizontal distance from a point to `(x, z)`. */
  function GroundDistance(p: Vec3, x: real, z: real): real {
    Hypot(p.x - x, p.z - z)
  }

  /** `k` is the first of the points closest to `(x, z)`. */
  ghost predicate IsFirstNearest(pts: seq<Vec3>, x: real, z: real, k: int) {
    && 0 <= k < |pts|
    && (forall j :: 0 <= j < |pts| ==> GroundDistance(pts[k], x, z) <= GroundDistance(pts[j], x, z))
    && (forall j :: 0 <= j < k ==> GroundDistance(pts[k], x, z) < GroundDistance(pts[j], x, z))
  }

  lemma FirstNearestUnique(pts: seq<Vec3>, x: real, z: real, k: int, k': int)
    requires IsFirstNearest(pts, x, z, k) && IsFirstNearest(pts, x, z, k')
    ensures k == k'
  {
    assert GroundDistance(pts[k], x, z) <= GroundDistance(pts[k'], x, z);
    assert GroundDistance(pts[k'], x, z) <= GroundDistance(pts[k], x, z);
  }

  /** The scan of `canPlacePier`: keep the best point so far, replacing it only
      by a strictly closer one. `best` is the first nearest of `pts[..i]`. */
  function NearestFrom(pts: seq<Vec3>, x: real, z: real, i: nat, best: nat): (k: nat)
    requires best < i <= |pts|
    requires forall j :: 0 <= j < i ==> GroundDistance(pts[best], x, z) <= GroundDistance(pts[j], x, z)
    requires forall j :: 0 <= j < best ==> GroundDistance(pts[best], x, z) < GroundDistance(pts[j], x, z)
    ensures IsFirstNearest(pts, x, z, k)
    decreases |pts| - i
  {
    if i == |pts| then best
    else if GroundDistance(pts[i], x, z) < GroundDistance(pts[best], x, z) then NearestFrom(pts, x, z, i + 1, i)
    else NearestFrom(pts, x, z, i + 1, best)
  }

  /** The closest connection point, ties going to the earliest; none for no points. */
  function NearestConnection(pts: seq<Vec3>, x: real, z: real): (k: Option<nat>)
    ensures k.None? <==> |pts| == 0
    ensures k.Some? ==> IsFirstNearest(pts, x, z, k.value)
  {
    if |pts| == 0 then None else Some(NearestFrom(pts, x, z, 1, 0))
  }

  /** The rule on the pier count: `floor(h / rise) <= 6`, i.e. below seven rises. */
  function PierCountOk(height: real): (ok: bool)
    ensures ok <==> height < 7.0 * RAIL_SLOPE_RISE
  {
    PierCountBound(height);
    (height / RAIL_SLOPE_RISE).Floor <= 6
  }

  /** The count rule is a plain height bound: at most six whole rises fit below `height`. */
  lemma PierCountBound(height: real)
    ensures (height / RAIL_SLOPE_RISE).Floor <= 6 <==> height < 7.0 * RAIL_SLOPE_RISE
  {
    var q := height / RAIL_SLOPE_RISE;
    DivMul(height, RAIL_SLOPE_RISE);
    if q < 7.0 {
      MulLtMono(q, 7.0, RAIL_SLOPE_RISE);
      assert q * RAIL_SLOPE_RISE == height;
      assert q * RAIL_SLOPE_RISE < 7.0 * RAIL_SLOPE_RISE;
      assert height < 7.0 * RAIL_SLOPE_RISE;
    } else {
      MulLeMono(7.0, q, RAIL_SLOPE_RISE);
      assert height >= 7.0 * RAIL_SLOPE_RISE;
    }
  }

  /** The pier's yaw: across the rail at the chosen connection. Only plain
      curves look at which end was hit; every other kind, curve slopes
      included, takes the stored yaw. */
  function PierRotation(rail: Rail, point: Vec3): (yaw: real)
    ensures rail.railType.IsStraightFamily() ==> yaw == PoseFromRailEnd(rail).theta + PI / 2.0
    ensures rail.railType.CurveSlope? ==> yaw == PI / 2.0 - rail.rotation.y
    ensures rail.railType.Curve? && GroundDistance(point, rail.connections.start.x, rail.connections.start.z) < 0.1 ==>
      yaw == PI / 2.0 - rail.rotation.y
    ensures rail.railType.Curve? && GroundDistance(point, rail.connections.start.x, rail.connections.start.z) >= 0.1 ==>
      yaw == PI / 2.0 - PoseFromRailEnd(rail).theta
  {
    var railDirection :=
      if rail.railType.Curve? then
        var isStart := Hypot(point.x - rail.connections.start.x, point.z - rail.connections.start.z) < 0.1;
        if isStart then -rail.rotation.y
        else
          var baseRotation := rail.rotation.y;
          var curveAngle := if rail.railType.direction == Right then -CURVE_ANGLE else CURVE_ANGLE;
          -(baseRotation + curveAngle)
      else
        -rail.rotation.y;
    railDirection + PI / 2.0
  }

  /** `canPlacePier`: a pier stands under the connection point nearest to
      `position` when that point is within 0.1, at least the minimum pier
      height up, and at most six rises high. */
  function CanPlacePier(position: Vec3, rails: seq<Rail>): (res: PierPlacement)
    ensures |rails| == 0 ==> res == PierRejected(NotAtConnection)
    ensures forall k :: IsFirstNearest(ConnectionPoints(rails), position.x, position.z, k) ==>
      var p := ConnectionPoints(rails)[k];
      var d := GroundDistance(p, position.x, position.z);
      && (res == PierRejected(NotAtConnection) <==> d > 0.1)
      && (res == PierRejected(BelowMinimumHeight) <==> d <= 0.1 && p.y < MIN_PIER_HEIGHT)
      && (res == PierRejected(AboveMaximumCount) <==> d <= 0.1 && p.y >= MIN_PIER_HEIGHT && !PierCountOk(p.y))
      && (res.PierAccepted? <==> d <= 0.1 && p.y >= MIN_PIER_HEIGHT && PierCountOk(p.y))
      && (res.PierAccepted? ==>
            res.railHeight == p.y && res.correctPosition == Vec3(p.x, 0.0, p.z)
            && res.rotation == PierRotation(rails[k / 2], p))
  {
    var pts := ConnectionPoints(rails);
    match NearestConnection(pts, position.x, position.z)
    case None => PierRejected(NotAtConnection)
    case Some(k) =>
      var nearest := pts[k];
      var minDistance := GroundDistance(nearest, position.x, position.z);
      if minDistance > 0.1 then PierRejected(NotAtConnection)
      else
        var railHeight := nearest.y;
        if railHeight < MIN_PIER_HEIGHT then PierRejected(BelowMinimumHeight)
        else if !PierCountOk(railHeight) then PierRejected(AboveMaximumCount)
        else PierAccepted(PierRotation(rails[k / 2], nearest), railHeight, Vec3(nearest.x, 0.0, nearest.z))
  }

  /** A point farther than 0.1 from every connection point never gets a pier. */
  lemma PierFarFromEveryConnectionRejected(position: Vec3, rails: seq<Rail>)
    requires forall p :: p in ConnectionPoints(rails) ==> GroundDistance(p, position.x, position.z) > 0.1
    ensures CanPlacePier(position, rails) == PierRejected(NotAtConnection)
  {
    var pts := ConnectionPoints(rails);
    match NearestConnection(pts, position.x, position.z)
    case None =>
    case Some(k) =>
      assert pts[k] in pts;
  }

  /** A single flat piece under the query point: accepted exactly up to, but
      not including, seven rises. */
  lemma PierHeightBoundary(height: real, id: string)
    requires height >= MIN_PIER_HEIGHT
    ensures var rail := MakeStraight(Pose(Vec3(0.0, height, 0.0), 0.0), RAIL_STRAIGHT_FULL_LENGTH, id);
      var res := CanPlacePier(Vec3(0.0, 0.0, 0.0), [rail]);
      (res.PierAccepted? <==> height < 7.0 * RAIL_SLOPE_RISE)
      && (res.PierAccepted? ==> res.railHeight == height && res.correctPosition == Vec3(0.0, 0.0, 0.0))
  {
    var rail := MakeStraight(Pose(Vec3(0.0, height, 0.0), 0.0), RAIL_STRAIGHT_FULL_LENGTH, id);
    var pts := ConnectionPoints([rail]);
    assert pts[0] == Vec3(0.0, height, 0.0);
    assert GroundDistance(pts[0], 0.0, 0.0) == 0.0;
    assert IsFirstNearest(pts, 0.0, 0.0, 0);
    PierCountBound(height);
  }
}

=== FILE: real_arith.dfy ===
/** Small facts about real multiplication and division that the solver does
    not find on its own; each is used as a single proof step elsewhere. */
module RealArith {

  function Abs(x: real): (r: real)
    ensures r >= 0.0
    ensures r == x || r == -x
  {
    if x < 0.0 then -x else x
  }

  lemma MulNonneg(x: real, y: real)
    requires x >= 0.0 && y >= 0.0
    ensures x * y >= 0.0
  {}

  lemma MulPos(x: real, y: real)
    requires x > 0.0 && y > 0.0
    ensures x * y > 0.0
  {}

  lemma MulCancel(x: real, y: real, c: real)
    requires c != 0.0 && x * c == y * c
    ensures x == y
  {
    assert (x - y) * c == 0.0;
  }

  lemma DivMul(a: real, b: real)
    requires b != 0.0
    ensures (a / b) * b == a
  {}

  /** A part divided by a whole it does not exceed lies in `[0, 1]`. */
  lemma DivUnit(a: real, b: real)
    requires b > 0.0 && 0.0 <= a <= b
    ensures 0.0 <= a / b <= 1.0
  {
    var q := a / b;
    DivMul(a, b);
    assert q * b <= 1.0 * b;
  }

  /** Taking one divisor off the dividend takes one off the quotient. */
  lemma DivShift(a: real, c: real)
    requires c > 0.0
    ensures (a - c) / c == a / c - 1.0
  {
    var q, q2 := a / c, (a - c) / c;
    DivMul(a, c);
    DivMul(a - c, c);
    assert (q - 1.0) * c == q * c - c;
    MulCancel(q2, q - 1.0, c);
  }

  lemma AbsMul(x: real, y: real)
    ensures Abs(x * y) == Abs(x) * Abs(y)
  {
    if x < 0.0 {
      if y < 0.0 {
        assert x * y == (-x) * (-y);
      } else {
        assert -(x * y) == (-x) * y;
      }
    } else if y < 0.0 {
      assert -(x * y) == x * (-y);
    }
  }

  /** Scaling by a factor in `[0, 1]` stays between zero and the value. */
  lemma ScaleUnit(d: real, t: real)
    requires 0.0 <= t <= 1.0
    ensures d >= 0.0 ==> 0.0 <= d * t <= d
    ensures d <= 0.0 ==> d <= d * t <= 0.0
  {
    if d >= 0.0 {
      MulNonneg(d, t);
      MulNonneg(d, 1.0 - t);
    } else {
      MulNonneg(-d, t);
      MulNonneg(-d, 1.0 - t);
    }
  }

  /** A positive value scaled by a factor below one shrinks. */
  lemma ScaleBelowOne(x: real, y: real)
    requires x > 0.0 && 0.0 <= y < 1.0
    ensures x * y < x
  {
    MulPos(x, 1.0 - y);
  }

  /** Scaling by a factor of magnitude below one shrinks the magnitude. */
  lemma AbsScaleBelowOne(x: real, y: real)
    requires x != 0.0 && Abs(y) < 1.0
    ensures Abs(x * y) < Abs(x)
  {
    AbsMul(x, y);
    ScaleBelowOne(Abs(x), Abs(y));
  }

  /** A smaller magnitude stays smaller after both are scaled by the same factor. */
  lemma AbsScaleLe(u: real, v: real, s: real)
    requires Abs(u) <= Abs(v)
    ensures Abs(u * s) <= Abs(v * s)
  {
    AbsMul(u, s);
    AbsMul(v, s);
    MulNonneg(Abs(v) - Abs(u), Abs(s));
  }

  /** A factor of magnitude at most one half halves the magnitude at least. */
  lemma AbsScaleHalf(u: real, s: real)
    requires Abs(u) <= 0.5
    ensures Abs(u * s) <= Abs(s) / 2.0
  {
    AbsMul(u, s);
    MulNonneg(0.5 - Abs(u), Abs(s));
  }

  /** Multiplying both sides of `a < b` by a positive factor. */
  lemma MulLtMono(a: real, b: real, c: real)
    requires a < b && c > 0.0
    ensures a * c < b * c
  {
    MulPos(b - a, c);
  }

  /** Multiplying both sides of `a <= b` by a non-negative factor. */
  lemma MulLeMono(a: real, b: real, c: real)
    requires a <= b && c >= 0.0
    ensures a * c <= b * c
  {
    MulNonneg(b - a, c);
  }
}

=== FILE: train_runner.dfy ===
/** The train runner (src/composables/useTrainRunner.ts): a single progress
    distance along the closed track is turned into the poses of `CAR_COUNT`
    cars once per tick, and the lead car's pose is handed to every listener.
    The animation-frame scheduling is not modelled; a tick is a call of
    `Tick`. */
module TrainRunner {
  import opened RealArith
  import opened Trig
  import opened Constants
  import opened Types
  import opened MathUtil
  import opened RailsGeometry

  // ---------------------------------------------------------------------------
  // Easing

  /** Quadratic ease-in-out used for the height profile of slopes. */
  function EaseInOutQuad(t: real): (e: real)
    ensures t == 0.0 ==> e == 0.0
    ensures t == 0.5 ==> e == 0.5
    ensures t == 1.0 ==> e == 1.0
    ensures 0.0 <= t <= 1.0 ==> 0.0 <= e <= 1.0
    ensures 0.0 <= t < 0.5 ==> e < 0.5
    ensures 0.5 <= t <= 1.0 ==> 0.5 <= e
  {
    if t < 0.5 then
      if 0.0 <= t then EaseLow(t); 2.0 * t * t else 2.0 * t * t
    else
      if t <= 1.0 then EaseHigh(t); 1.0 - (-2.0 * t + 2.0) * (-2.0 * t + 2.0) / 2.0
      else 1.0 - (-2.0 * t + 2.0) * (-2.0 * t + 2.0) / 2.0
  }

  lemma EaseLow(t: real)
    requires 0.0 <= t < 0.5
    ensures 0.0 <= 2.0 * t * t < 0.5
  {
    var sq := t * t;
    MulNonneg(t, t);
    MulLeMono(t, 0.5, t);
    assert sq <= 0.5 * t;
    assert 2.0 * t * t == 2.0 * sq;
  }

  lemma EaseHigh(t: real)
    requires 0.5 <= t <= 1.0
    ensures 0.5 <= 1.0 - (-2.0 * t + 2.0) * (-2.0 * t + 2.0) / 2.0 <= 1.0
  {
    var u := -2.0 * t + 2.0;
    ScaleUnit(u, u);
    var sq := u * u;
    assert 0.0 <= sq <= 1.0;
  }

  /** Squares of non-negative numbers keep their order. */
  lemma SquareMono(a: real, b: real)
    requires 0.0 <= a <= b
    ensures a * a <= b * b
  {
    MulLeMono(a, b, a);
    MulLeMono(a, b, b);
    assert a * b == b * a;
  }

  /** The easing never goes back: a later parameter is at least as high. */
  lemma EaseMonotone(a: real, b: real)
    requires 0.0 <= a <= b <= 1.0
    ensures EaseInOutQuad(a) <= EaseInOutQuad(b)
  {
    if b < 0.5 {
      SquareMono(a, b);
      var sa, sb := a * a, b * b;
      assert 2.0 * a * a == 2.0 * sa && 2.0 * b * b == 2.0 * sb;
    } else if a >= 0.5 {
      var ua, ub := -2.0 * a + 2.0, -2.0 * b + 2.0;
      SquareMono(ub, ua);
    }
  }

  /** Ease-in mirrors ease-out: the curve is point-symmetric about `(1/2, 1/2)`. */
  lemma EaseSymmetric(t: real)
    ensures EaseInOutQuad(1.0 - t) == 1.0 - EaseInOutQuad(t)
  {
    if t < 0.5 {
      assert -2.0 * (1.0 - t) + 2.0 == 2.0 * t;
      assert (2.0 * t) * (2.0 * t) == 4.0 * (t * t);
    } else if t > 0.5 {
      var u := -2.0 * t + 2.0;
      assert u == 2.0 * (1.0 - t);
      assert u * u == 4.0 * ((1.0 - t) * (1.0 - t));
      assert 2.0 * (1.0 - t) * (1.0 - t) == 2.0 * ((1.0 - t) * (1.0 - t));
    }
  }

  // ---------------------------------------------------------------------------
  // Pose on one segment

  /** The horizontal chord, with `|| 1` replacing a zero length. */
  function ChordLength(r: Rail): (len: real)
    ensures len > 0.0
    ensures r.connections.start.x != r.connections.end.x || r.connections.start.z != r.connections.end.z ==>
      len == Hypot(r.connections.end.x - r.connections.start.x, r.connections.end.z - r.connections.start.z)
  {
    var h := Hypot(r.connections.end.x - r.connections.start.x, r.connections.end.z - r.connections.start.z);
    if h == 0.0 then 1.0 else h
  }

  /** `s + (d / len) * len * t`, the way the source walks along a unit direction,
      is the plain linear interpolation from `s` to `s + d`. */
  function AlongChord(s: real, d: real, len: real, t: real): (x: real)
    requires len != 0.0
    ensures x == Lerp(s, s + d, t)
  {
    DivMul(d, len);
    var n := d / len;
    assert n * len * t == d * t;
    s + n * len * t
  }

  /** The height of a car on an eased profile from `sy` to `ey`. */
  function EasedHeight(sy: real, ey: real, t: real): (y: real)
    ensures y == Lerp(sy, ey, EaseInOutQuad(t)) + HEIGHT_OFFSET
    ensures t == 0.0 ==> y == sy + HEIGHT_OFFSET
    ensures t == 1.0 ==> y == ey + HEIGHT_OFFSET
  {
    sy + (ey - sy) * EaseInOutQuad(t) + HEIGHT_OFFSET
  }

  /** The central difference of the easing with step 0.001, one-sided where
      the step would leave `[0, 1]`: the rate at which the eased height grows. */
  function EaseRate(t: real): (rate: real)
    ensures 0.0 <= t <= 1.0 ==> rate >= 0.0
  {
    var deltaT := 0.001;
    var t1 := if 0.0 > t - deltaT then 0.0 else t - deltaT;
    var t2 := if 1.0 < t + deltaT then 1.0 else t + deltaT;
    if 0.0 <= t <= 1.0 then
      EaseMonotone(t1, t2);
      (EaseInOutQuad(t2) - EaseInOutQuad(t1)) / (2.0 * deltaT)
    else
      (EaseInOutQuad(t2) - EaseInOutQuad(t1)) / (2.0 * deltaT)
  }

  /** The pitch of an eased height profile: the eased rate of climb times the
      total rise, over the horizontal rate `run`. */
  function EasedPitch(t: real, totalRise: real, run: real): (pitch: real)
    ensures pitch == Atan2(EaseRate(t) * totalRise, run)
    ensures totalRise == 0.0 ==> pitch == Atan2(0.0, run)
  {
    ClimbPitch(EaseRate(t), totalRise, run);
    Atan2(ClimbOver(EaseRate(t), totalRise), run)
  }

  /** The climb at rate `rate` over a total rise `rise`. */
  function ClimbOver(rate: real, rise: real): real {
    rate * rise
  }

  lemma ClimbPitch(rate: real, rise: real, run: real)
    ensures Atan2(ClimbOver(rate, rise), run) == Atan2(rate * rise, run)
    ensures rise == 0.0 ==> Atan2(ClimbOver(rate, rise), run) == Atan2(0.0, run)
  {
  }

  /** The rate of climb is the same at mirrored points of a slope. */
  lemma EaseRateSymmetric(t: real)
    ensures EaseRate(1.0 - t) == EaseRate(t)
  {
    var deltaT := 0.001;
    var t1 := if 0.0 > t - deltaT then 0.0 else t - deltaT;
    var t2 := if 1.0 < t + deltaT then 1.0 else t + deltaT;
    var u1 := if 0.0 > (1.0 - t) - deltaT then 0.0 else (1.0 - t) - deltaT;
    var u2 := if 1.0 < (1.0 - t) + deltaT then 1.0 else (1.0 - t) + deltaT;
    assert u1 == 1.0 - t2 && u2 == 1.0 - t1;
    EaseSymmetric(t1);
    EaseSymmetric(t2);
  }

  /** The pitch of an eased profile is the same at mirrored points, so a car
      pitches the same a given distance from either end. */
  lemma EasedPitchMirrored(t: real, totalRise: real, run: real)
    ensures EasedPitch(1.0 - t, totalRise, run) == EasedPitch(t, totalRise, run)
  {
    EaseRateSymmetric(t);
  }

  /** Straight, station and crossing: linear in position and height. */
  function ChordPose(r: Rail, t: real): (p: CarPose)
    ensures p.position == Vec3(
        Lerp(r.connections.start.x, r.connections.end.x, t),
        Lerp(r.connections.start.y, r.connections.end.y, t) + HEIGHT_OFFSET,
        Lerp(r.connections.start.z, r.connections.end.z, t))
    ensures p.rotation.z == 0.0
  {
    var s := r.connections.start;
    var e := r.connections.end;
    var len := ChordLength(r);
    var yaw := Atan2((e.x - s.x) / len, (e.z - s.z) / len);
    var pitch := Atan2(e.y - s.y, len);
    var y := s.y + (e.y - s.y) * t;
    assert y == Lerp(s.y, e.y, t);
    CarPose(Vec3(AlongChord(s.x, e.x - s.x, len, t), y + HEIGHT_OFFSET, AlongChord(s.z, e.z - s.z, len, t)),
            Vec3(-pitch, yaw, 0.0))
  }

  /** Slope: linear in plan, eased in height. */
  function SlopePose(r: Rail, t: real): (p: CarPose)
    ensures p.position == Vec3(
        Lerp(r.connections.start.x, r.connections.end.x, t),
        Lerp(r.connections.start.y, r.connections.end.y, EaseInOutQuad(t)) + HEIGHT_OFFSET,
        Lerp(r.connections.start.z, r.connections.end.z, t))
    ensures p.rotation.z == 0.0
  {
    var s := r.connections.start;
    var e := r.connections.end;
    var len := ChordLength(r);
    var yaw := Atan2((e.x - s.x) / len, (e.z - s.z) / len);
    var pitch := EasedPitch(t, e.y - s.y, len);
    CarPose(Vec3(AlongChord(s.x, e.x - s.x, len, t), EasedHeight(s.y, e.y, t), AlongChord(s.z, e.z - s.z, len, t)),
            Vec3(-pitch, yaw, 0.0))
  }

  /** The point at parameter `t` on a curve's circle, and the direction of travel there. */
  datatype ArcSample = ArcSample(x: real, z: real, tx: real, tz: real)

  function ArcAt(r: Rail, t: real): (a: ArcSample)
    requires r.railType.IsCurveFamily()
    ensures (a.x - r.position.x) * a.tx + (a.z - r.position.z) * a.tz == 0.0
    ensures r.railType.direction == Left ==>
      (a.x - r.position.x) * a.tz - (a.z - r.position.z) * a.tx == RAIL_CURVE_RADIUS * (a.tx * a.tx + a.tz * a.tz)
    ensures r.railType.direction == Right ==>
      (a.x - r.position.x) * a.tz - (a.z - r.position.z) * a.tx == -RAIL_CURVE_RADIUS * (a.tx * a.tx + a.tz * a.tz)
  {
    var cx := r.position.x;
    var cz := r.position.z;
    var theta := r.rotation.y;
    var sgn := if r.railType.direction == Right then -1.0 else 1.0;
    var phi := -(theta - sgn * (PI / 2.0) + sgn * CURVE_ANGLE * t);
    ArcSample(cx + Cos(phi) * RAIL_CURVE_RADIUS, cz + Sin(phi) * RAIL_CURVE_RADIUS, -sgn * Sin(phi), sgn * Cos(phi))
  }

  /** Curve-slope: on the arc in plan, eased in height over the arc length. */
  function CurveSlopePose(r: Rail, t: real): (p: CarPose)
    requires r.railType.IsCurveFamily()
    ensures p.position.y == Lerp(r.connections.start.y, r.connections.end.y, EaseInOutQuad(t)) + HEIGHT_OFFSET
    ensures p.rotation.z == 0.0
  {
    var arc := ArcAt(r, t);
    var yaw := Atan2(arc.tx, -arc.tz);
    var pitch := EasedPitch(t, r.connections.end.y - r.connections.start.y, RAIL_CURVE_RADIUS * CURVE_ANGLE);
    CarPose(Vec3(arc.x, EasedHeight(r.connections.start.y, r.connections.end.y, t), arc.z), Vec3(-pitch, -yaw, 0.0))
  }

  /** Curve: on the arc, level at the start height. */
  function CurvePose(r: Rail, t: real): (p: CarPose)
    requires r.railType.IsCurveFamily()
    ensures p.position.y == r.connections.start.y + HEIGHT_OFFSET
    ensures p.rotation.x == 0.0 && p.rotation.z == 0.0
  {
    var arc := ArcAt(r, t);
    var yaw := -Atan2(arc.tx, -arc.tz);
    CarPose(Vec3(arc.x, r.connections.start.y + HEIGHT_OFFSET, arc.z), Vec3(0.0, yaw, 0.0))
  }

  /** `getPoseOnRail`: where a car is at parameter `t` of a segment. */
  function GetPoseOnRail(r: Rail, t: real): (p: CarPose)
    ensures p.rotation.z == 0.0
    ensures (r.railType == Straight || r.railType == Station || r.railType == Crossing) ==>
      p.position == Vec3(
        Lerp(r.connections.start.x, r.connections.end.x, t),
        Lerp(r.connections.start.y, r.connections.end.y, t) + HEIGHT_OFFSET,
        Lerp(r.connections.start.z, r.connections.end.z, t))
    ensures r.railType == Slope ==>
      p.position == Vec3(
        Lerp(r.connections.start.x, r.connections.end.x, t),
        Lerp(r.connections.start.y, r.connections.end.y, EaseInOutQuad(t)) + HEIGHT_OFFSET,
        Lerp(r.connections.start.z, r.connections.end.z, t))
    ensures r.railType.CurveSlope? ==>
      p.position.y == Lerp(r.connections.start.y, r.connections.end.y, EaseInOutQuad(t)) + HEIGHT_OFFSET
    ensures r.railType.Curve? ==>
      p.position.y == r.connections.start.y + HEIGHT_OFFSET && p.rotation.x == 0.0
  {
    match r.railType
    case Straight | Station | Crossing => ChordPose(r, t)
    case Slope => SlopePose(r, t)
    case CurveSlope(_) => CurveSlopePose(r, t)
    case Curve(_) => CurvePose(r, t)
  }

  /** On a slope or a curve slope a car pitches the same at mirrored parameters. */
  lemma SlopePitchMirrored(r: Rail, t: real)
    requires r.railType == Slope || r.railType.CurveSlope?
    ensures GetPoseOnRail(r, 1.0 - t).rotation.x == GetPoseOnRail(r, t).rotation.x
  {
    var rise := r.connections.end.y - r.connections.start.y;
    if r.railType == Slope {
      EasedPitchMirrored(t, rise, ChordLength(r));
    } else {
      EasedPitchMirrored(t, rise, RAIL_CURVE_RADIUS * CURVE_ANGLE);
    }
  }

  /** On the straight kinds a car sits exactly on the ends at `t = 0` and `t = 1`. */
  lemma StraightPoseEndpoints(r: Rail)
    requires r.railType == Straight || r.railType == Station || r.railType == Crossing
    ensures GetPoseOnRail(r, 0.0).position == Add(r.connections.start, Vec3(0.0, HEIGHT_OFFSET, 0.0))
    ensures GetPoseOnRail(r, 1.0).position == Add(r.connections.end, Vec3(0.0, HEIGHT_OFFSET, 0.0))
  {}

  /** A slope's height starts and ends at the connection heights and, going up,
      never drops along the way. */
  lemma SlopeHeightProfile(r: Rail, a: real, b: real)
    requires r.railType == Slope
    requires 0.0 <= a <= b <= 1.0
    ensures GetPoseOnRail(r, 0.0).position.y == r.connections.start.y + HEIGHT_OFFSET
    ensures GetPoseOnRail(r, 1.0).position.y == r.connections.end.y + HEIGHT_OFFSET
    ensures r.connections.start.y <= r.connections.end.y ==>
      GetPoseOnRail(r, a).position.y <= GetPoseOnRail(r, b).position.y
  {
    var sy, ey := r.connections.start.y, r.connections.end.y;
    EaseMonotone(a, b);
    if sy <= ey {
      LerpMono(sy, ey, EaseInOutQuad(a), EaseInOutQuad(b));
    }
  }

  /** Going up, a later parameter interpolates at least as high. */
  lemma LerpMono(sy: real, ey: real, ea: real, eb: real)
    requires sy <= ey && ea <= eb
    ensures Lerp(sy, ey, ea) <= Lerp(sy, ey, eb)
  {
    MulNonneg(ey - sy, eb - ea);
    assert (ey - sy) * (eb - ea) == (ey - sy) * eb - (ey - sy) * ea;
  }

  // ---------------------------------------------------------------------------
  // Locating a distance on the track

  /** Total length of the first `k` segments, summed left to right. */
  function Prefix(rails: seq<Rail>, k: nat): (s: real)
    requires k <= |rails|
    ensures s >= 0.0
  {
    if k == 0 then 0.0 else Prefix(rails, k - 1) + SegmentLength(rails[k - 1])
  }

  lemma {:induction false} PrefixMonotone(rails: seq<Rail>, j: nat, k: nat)
    requires j <= k <= |rails|
    ensures Prefix(rails, j) <= Prefix(rails, k)
    decreases k - j
  {
    if j < k {
      PrefixMonotone(rails, j, k - 1);
    }
  }

  /** `totalRailLength`: the sum of all segment lengths. */
  function TotalRailLength(rails: seq<Rail>): (total: real)
    ensures total >= 0.0
    ensures |rails| == 0 ==> total == 0.0
    ensures forall i :: 0 <= i < |rails| ==> SegmentLength(rails[i]) <= total
    ensures total == Prefix(rails, |rails|)
  {
    forall i | 0 <= i < |rails|
      ensures SegmentLength(rails[i]) <= Prefix(rails, |rails|)
    {
      PrefixMonotone(rails, i + 1, |rails|);
    }
    Prefix(rails, |rails|)
  }

  /** The walk of `stepTrain`: starting at segment `idx` with `d` still to go,
      stop at the first segment whose length is at least what is left. */
  function Walk(rails: seq<Rail>, idx: nat, d: real): (res: (nat, real))
    requires idx <= |rails|
    ensures idx <= res.0 <= |rails|
    ensures res.1 == d - (Prefix(rails, res.0) - Prefix(rails, idx))
    ensures forall j :: idx < j <= res.0 ==> d > Prefix(rails, j) - Prefix(rails, idx)
    ensures res.0 < |rails| ==> d <= Prefix(rails, res.0 + 1) - Prefix(rails, idx)
    decreases |rails| - idx
  {
    if idx == |rails| then (idx, d)
    else if d <= SegmentLength(rails[idx]) then (idx, d)
    else Walk(rails, idx + 1, d - SegmentLength(rails[idx]))
  }

  /** The segment index and remaining distance for track distance `d`: the
      first segment whose end is at or beyond `d`. */
  function Locate(rails: seq<Rail>, d: real): (res: (nat, real))
    ensures res.0 <= |rails|
    ensures res.1 == d - Prefix(rails, res.0)
    ensures forall j :: 0 < j <= res.0 ==> Prefix(rails, j) < d
    ensures res.0 < |rails| ==> d <= Prefix(rails, res.0 + 1)
  {
    Walk(rails, 0, d)
  }

  /** Within the track the walk never runs past the last segment, and the
      remaining distance fits in the segment found. */
  lemma LocateWithinTrack(rails: seq<Rail>, d: real)
    requires |rails| > 0
    requires 0.0 <= d <= TotalRailLength(rails)
    ensures Locate(rails, d).0 < |rails|
    ensures 0.0 <= Locate(rails, d).1 <= SegmentLength(rails[Locate(rails, d).0])
  {
    var (idx, rem) := Locate(rails, d);
    assert idx > 0 ==> Prefix(rails, idx) < d;
  }

  /** `Math.max(0, Math.min(1, v))`. */
  function Clamp01(v: real): (r: real)
    ensures 0.0 <= r <= 1.0
    ensures 0.0 <= v <= 1.0 ==> r == v
    ensures v < 0.0 ==> r == 0.0
    ensures v > 1.0 ==> r == 1.0
  {
    var m := if 1.0 < v then 1.0 else v;
    if 0.0 > m then 0.0 else m
  }

  /** How far into a segment of length `len` the remaining distance `rem`
      reaches, as a parameter in `[0, 1]`; a zero length divides by one instead. */
  function Fraction(rem: real, len: real): (t: real)
    ensures 0.0 <= t <= 1.0
    ensures len > 0.0 && 0.0 <= rem <= len ==> t * len == rem
    ensures rem <= 0.0 <= len ==> t == 0.0
    ensures rem >= len > 0.0 ==> t == 1.0
  {
    var q := rem / (if len == 0.0 then 1.0 else len);
    if len > 0.0 && 0.0 <= rem <= len then
      DivUnit(rem, len);
      DivMul(rem, len);
      Clamp01(q)
    else
      Clamp01(q)
  }

  /** The segment and local parameter for track distance `d`, falling back to
      the first segment when the walk ran past the end. */
  function SegmentParam(rails: seq<Rail>, d: real): (res: (Rail, real))
    requires |rails| > 0
    ensures 0.0 <= res.1 <= 1.0
    ensures Locate(rails, d).0 < |rails| ==>
      res == (rails[Locate(rails, d).0], Fraction(Locate(rails, d).1, SegmentLength(rails[Locate(rails, d).0])))
    ensures Locate(rails, d).0 == |rails| ==> res.0 == rails[0]
  {
    var (idx, rem) := Locate(rails, d);
    var seg := if idx < |rails| then rails[idx] else rails[0];
    (seg, Fraction(rem, SegmentLength(seg)))
  }

  /** A distance exactly at the end of segment `k` belongs to segment `k`, at `t = 1`. */
  lemma BoundaryMapsToSegmentEnd(rails: seq<Rail>, k: nat)
    requires k < |rails|
    requires SegmentLength(rails[k]) > 0.0
    ensures Locate(rails, Prefix(rails, k + 1)) == (k, SegmentLength(rails[k]))
    ensures SegmentParam(rails, Prefix(rails, k + 1)) == (rails[k], 1.0)
  {
    LocateSegmentEnd(rails, k);
  }

  lemma LocateSegmentEnd(rails: seq<Rail>, k: nat)
    requires k < |rails|
    requires SegmentLength(rails[k]) > 0.0
    ensures Locate(rails, Prefix(rails, k + 1)).0 == k
    ensures Locate(rails, Prefix(rails, k + 1)).1 == SegmentLength(rails[k])
  {
    var d := Prefix(rails, k + 1);
    LocateNotBefore(rails, d, k);
    LocateNotAfter(rails, d, k);
  }

  /** A distance beyond the start of segment `k` is not located before it. */
  lemma LocateNotBefore(rails: seq<Rail>, d: real, k: nat)
    requires k < |rails| && Prefix(rails, k) < d
    ensures Locate(rails, d).0 >= k
  {
    var idx := Locate(rails, d).0;
    if idx < k {
      assert false;
    }
  }

  /** A distance within the end of segment `k` is not located after it. */
  lemma LocateNotAfter(rails: seq<Rail>, d: real, k: nat)
    requires k < |rails| && d <= Prefix(rails, k + 1)
    ensures Locate(rails, d).0 <= k
  {
    if Locate(rails, d).0 > k {
      assert false;
    }
  }

  /** The pose of a car standing at track distance `d`. */
  function SampleAt(rails: seq<Rail>, d: real): (p: CarPose)
    requires |rails| > 0
    ensures exists i, t :: 0 <= i < |rails| && 0.0 <= t <= 1.0 && p == GetPoseOnRail(rails[i], t)
    ensures 0.0 <= d <= TotalRailLength(rails) ==>
      p == GetPoseOnRail(rails[Locate(rails, d).0], Fraction(Locate(rails, d).1, SegmentLength(rails[Locate(rails, d).0])))
  {
    var (seg, t) := SegmentParam(rails, d);
    var i := if Locate(rails, d).0 < |rails| then Locate(rails, d).0 else 0;
    assert seg == rails[i];
    if 0.0 <= d <= TotalRailLength(rails) then
      LocateWithinTrack(rails, d);
      GetPoseOnRail(seg, t)
    else
      GetPoseOnRail(seg, t)
  }

  // ---------------------------------------------------------------------------
  // Listeners

  /** A registered listener; the source compares callbacks by identity. */
  type ListenerId = nat

  datatype Delivery = Delivery(listener: ListenerId, pose: CarPose)

  /** `trainPoseCallbacks.indexOf(callback)`. */
  function IndexOf(xs: seq<ListenerId>, x: ListenerId): (i: int)
    ensures -1 <= i < |xs|
    ensures i == -1 <==> x !in xs
    ensures i >= 0 ==> xs[i] == x && forall j :: 0 <= j < i ==> xs[j] != x
  {
    if |xs| == 0 then -1
    else if xs[0] == x then 0
    else
      var i := IndexOf(xs[1..], x);
      if i == -1 then -1 else i + 1
  }

  /** `emitTrainPose`: every listener, in registration order, gets the pose. */
  function EmitTrainPose(listeners: seq<ListenerId>, pose: CarPose): (ds: seq<Delivery>)
    ensures |ds| == |listeners|
    ensures forall i :: 0 <= i < |ds| ==> ds[i] == Delivery(listeners[i], pose)
  {
    seq(|listeners|, i requires 0 <= i < |listeners| => Delivery(listeners[i], pose))
  }

  // ---------------------------------------------------------------------------
  // Runner state and the tick

  datatype TrainState = TrainState(progress: real, cars: seq<CarPose>, listeners: seq<ListenerId>)

  /** The result of one tick: the new state and the pose deliveries made. */
  datatype TickResult = TickResult(state: TrainState, delivered: seq<Delivery>)

  /** Blend factor for the per-car pitch smoothing. */
  const PITCH_LERP: real := 0.08

  /** Progress advanced per tick, per unit of speed and of average segment length. */
  const TICK_STEP: real := 0.008

  /** The consist at rest: cars one spacing apart behind the origin, facing +X. */
  function InitialPose(): (cars: seq<CarPose>)
    ensures |cars| == CAR_COUNT
    ensures forall i :: 0 <= i < CAR_COUNT ==>
      cars[i] == CarPose(Vec3(-(i as real * CAR_SPACING), HEIGHT_OFFSET, 0.0), Vec3(0.0, PI / 2.0, 0.0))
  {
    seq(CAR_COUNT, i => CarPose(Vec3(-(i as real * CAR_SPACING), HEIGHT_OFFSET, 0.0), Vec3(0.0, PI / 2.0, 0.0)))
  }

  /** The fresh runner: nothing travelled, the consist at rest, no listeners. */
  function NewRunner(): (s: TrainState)
    ensures s.progress == 0.0 && s.cars == InitialPose() && s.listeners == []
  {
    TrainState(0.0, InitialPose(), [])
  }

  /** `reset`: back to the start; listeners stay registered. */
  function Reset(s: TrainState): (r: TrainState)
    ensures r.progress == 0.0
    ensures |r.cars| == CAR_COUNT
    ensures forall i :: 0 <= i < CAR_COUNT ==>
      r.cars[i].position == Vec3(-(i as real * CAR_SPACING), HEIGHT_OFFSET, 0.0)
      && r.cars[i].rotation == Vec3(0.0, PI / 2.0, 0.0)
    ensures r.listeners == s.listeners
  {
    s.(progress := 0.0, cars := InitialPose())
  }

  /** A reset forgets the run: it is a fresh runner with the same listeners,
      whatever the progress and cars were, and a second reset changes nothing. */
  lemma ResetForgetsRun(s: TrainState, s2: TrainState)
    requires s2.listeners == s.listeners
    ensures Reset(s2) == Reset(s)
    ensures Reset(Reset(s)) == Reset(s)
    ensures Reset(s) == NewRunner().(listeners := s.listeners)
  {
  }

  /** Track distance of car `i`: `i` spacings behind the lead, folded into `[0, L)`. */
  function CarTrackPosition(progress: real, i: nat, total: real): (d: real)
    requires total > 0.0
    ensures 0.0 <= d < total
    ensures Congruent(d, progress - i as real * CAR_SPACING, total)
  {
    var d := WrapInto(progress - i as real * CAR_SPACING, total);
    CongruentSymm(progress - i as real * CAR_SPACING, d, total);
    d
  }

  /** Neighbouring cars are exactly one spacing apart along the track, modulo a lap. */
  lemma ConsistSpacing(progress: real, i: nat, total: real)
    requires total > 0.0
    ensures CarTrackPosition(progress, i + 1, total) == WrapInto(CarTrackPosition(progress, i, total) - CAR_SPACING, total)
  {
    var di := CarTrackPosition(progress, i, total);
    var k :| di - (progress - i as real * CAR_SPACING) == Multiple(k, total);
    assert (di - CAR_SPACING) - (progress - (i + 1) as real * CAR_SPACING) == Multiple(k, total);
    WrapIntoCongruent(di - CAR_SPACING, progress - (i + 1) as real * CAR_SPACING, total);
  }

  /** The raw pose with only its pitch eased toward the previous tick's pitch. */
  function SmoothPitch(prev: seq<CarPose>, i: nat, raw: CarPose): (p: CarPose)
    ensures p.position == raw.position
    ensures p.rotation.y == raw.rotation.y && p.rotation.z == raw.rotation.z
    ensures i < |prev| ==> p.rotation.x == AngleLerp(prev[i].rotation.x, raw.rotation.x, PITCH_LERP)
    ensures i >= |prev| ==> p == raw
  {
    if i < |prev| then
      CarPose(raw.position, Vec3(AngleLerp(prev[i].rotation.x, raw.rotation.x, PITCH_LERP), raw.rotation.y, raw.rotation.z))
    else
      raw
  }

  /** The poses of all cars for lead distance `progress`. */
  function Consist(rails: seq<Rail>, progress: real, total: real, prev: seq<CarPose>): (cars: seq<CarPose>)
    requires |rails| > 0 && total > 0.0
    ensures |cars| == CAR_COUNT
    ensures forall i :: 0 <= i < CAR_COUNT ==>
      cars[i] == SmoothPitch(prev, i, SampleAt(rails, CarTrackPosition(progress, i, total)))
  {
    seq(CAR_COUNT, i requires 0 <= i => SmoothPitch(prev, i, SampleAt(rails, CarTrackPosition(progress, i, total))))
  }

  /** `totalRailLength / rails.length`: the length every segment would have if all were equal. */
  function AverageSegmentLength(rails: seq<Rail>): (avg: real)
    requires |rails| > 0
    ensures avg * |rails| as real == TotalRailLength(rails)
    ensures avg >= 0.0
  {
    DivMul(TotalRailLength(rails), |rails| as real);
    TotalRailLength(rails) / |rails| as real
  }

  /** The lead's next track distance: moved on by the speed times the average
      segment length, and folded back into one lap. */
  function AdvanceProgress(progress: real, rails: seq<Rail>, speed: real): (p: real)
    requires TotalRailLength(rails) > 0.0
    ensures |rails| > 0
    ensures 0.0 <= p < TotalRailLength(rails)
    ensures Congruent(p, progress + speed * TICK_STEP * AverageSegmentLength(rails), TotalRailLength(rails))
    ensures Locate(rails, p).0 < |rails|
  {
    var total := TotalRailLength(rails);
    var step := progress + speed * TICK_STEP * AverageSegmentLength(rails);
    var p := WrapInto(step, total);
    CongruentSymm(step, p, total);
    LocateWithinTrack(rails, p);
    p
  }

  /** The pose handed to listeners: the lead car's raw pose turned half a turn in yaw. */
  function EmittedPose(lead: CarPose): (e: CarPose)
    ensures e.position == lead.position && e.rotation.x == lead.rotation.x && e.rotation.z == lead.rotation.z
    ensures e.rotation.y + PI == lead.rotation.y
  {
    CarPose(lead.position, Vec3(lead.rotation.x, lead.rotation.y - PI, lead.rotation.z))
  }

  /** The tick result once the folded progress `p` is known. */
  function PlacedTrain(s: TrainState, rails: seq<Rail>, p: real): (r: TickResult)
    requires TotalRailLength(rails) > 0.0 && |rails| > 0
    ensures r.state.progress == p && r.state.listeners == s.listeners
    ensures |r.delivered| == |s.listeners|
  {
    var total := TotalRailLength(rails);
    TickResult(s.(progress := p, cars := Consist(rails, p, total, s.cars)),
               EmitTrainPose(s.listeners, EmittedPose(SampleAt(rails, p))))
  }

  /** `stepTrain`: advance, place every car, and tell the listeners where the lead is. */
  function StepTrain(s: TrainState, rails: seq<Rail>, speed: real): (r: TickResult)
    ensures TotalRailLength(rails) <= 0.0 ==> r == TickResult(s, [])
    ensures r.state.listeners == s.listeners
    ensures TotalRailLength(rails) > 0.0 ==>
      && 0.0 <= r.state.progress < TotalRailLength(rails)
      && Congruent(r.state.progress, s.progress + speed * TICK_STEP * AverageSegmentLength(rails), TotalRailLength(rails))
      && |r.state.cars| == CAR_COUNT
      && (forall i :: 0 <= i < CAR_COUNT ==>
            r.state.cars[i] == SmoothPitch(s.cars, i, SampleAt(rails, CarTrackPosition(r.state.progress, i, TotalRailLength(rails)))))
      && |r.delivered| == |s.listeners|
      && (forall i :: 0 <= i < |r.delivered| ==>
            && r.delivered[i].listener == s.listeners[i]
            && r.delivered[i].pose == EmittedPose(SampleAt(rails, CarTrackPosition(r.state.progress, 0, TotalRailLength(rails)))))
  {
    var total := TotalRailLength(rails);
    if total <= 0.0 then TickResult(s, [])
    else
      var progress := AdvanceProgress(s.progress, rails, speed);
      assert CarTrackPosition(progress, 0, total) == progress;
      PlacedTrain(s, rails, progress)
  }

  /** What listeners hear is the lead car as placed, turned half a turn, except
      that the pitch is the unsmoothed one. */
  lemma EmittedMatchesLeadCar(s: TrainState, rails: seq<Rail>, speed: real, i: nat)
    requires TotalRailLength(rails) > 0.0
    requires i < |s.listeners|
    ensures StepTrain(s, rails, speed).delivered[i].pose.position == StepTrain(s, rails, speed).state.cars[0].position
    ensures StepTrain(s, rails, speed).delivered[i].pose.rotation.y + PI == StepTrain(s, rails, speed).state.cars[0].rotation.y
    ensures StepTrain(s, rails, speed).delivered[i].pose.rotation.z == 0.0
  {
    var r := StepTrain(s, rails, speed);
    var lead := SampleAt(rails, CarTrackPosition(r.state.progress, 0, TotalRailLength(rails)));
    assert r.state.cars[0] == SmoothPitch(s.cars, 0, lead);
  }

  /** The animation-frame callback: a step happens only while running and runnable. */
  function Tick(s: TrainState, rails: seq<Rail>, speed: real, running: bool, canRun: bool): (r: TickResult)
    ensures !(running && canRun) ==> r.state == s && r.delivered == []
    ensures running && canRun ==> r == StepTrain(s, rails, speed)
  {
    if running && canRun then StepTrain(s, rails, speed) else TickResult(s, [])
  }

  /** One more whole lap before the step lands on the same folded progress. */
  lemma AdvanceProgressLapPeriodic(progress: real, rails: seq<Rail>, speed: real)
    requires TotalRailLength(rails) > 0.0
    ensures AdvanceProgress(progress + TotalRailLength(rails), rails, speed) == AdvanceProgress(progress, rails, speed)
  {
    var total := TotalRailLength(rails);
    var step := progress + speed * TICK_STEP * AverageSegmentLength(rails);
    assert progress + total + speed * TICK_STEP * AverageSegmentLength(rails) == step + total;
    WrapIntoPeriodic(step, total);
  }

  /** A step on a track of positive length is fixed by the folded progress,
      the previous cars and the listeners. */
  lemma StepTrainFromProgress(s: TrainState, rails: seq<Rail>, speed: real)
    requires TotalRailLength(rails) > 0.0
    ensures |rails| > 0
    ensures StepTrain(s, rails, speed) == PlacedTrain(s, rails, AdvanceProgress(s.progress, rails, speed))
  {
  }

  /** On a track of positive length, a step sees only where the train is within the lap. */
  lemma StepTrainLapPeriodicOnTrack(s: TrainState, s2: TrainState, rails: seq<Rail>, speed: real)
    requires TotalRailLength(rails) > 0.0
    requires s2 == s.(progress := s.progress + TotalRailLength(rails))
    ensures StepTrain(s2, rails, speed) == StepTrain(s, rails, speed)
  {
    var p := AdvanceProgress(s.progress, rails, speed);
    AdvanceProgressLapPeriodic(s.progress, rails, speed);
    assert AdvanceProgress(s2.progress, rails, speed) == p;
    StepTrainFromProgress(s, rails, speed);
    StepTrainFromProgress(s2, rails, speed);
    PlacedTrainIgnoresProgress(s, s2, rails, p);
  }

  /** Placing the train does not look at the progress it replaces. */
  lemma PlacedTrainIgnoresProgress(s: TrainState, s2: TrainState, rails: seq<Rail>, p: real)
    requires TotalRailLength(rails) > 0.0 && |rails| > 0
    requires s2.cars == s.cars && s2.listeners == s.listeners
    ensures PlacedTrain(s2, rails, p) == PlacedTrain(s, rails, p)
  {
  }

  /** A step sees only where the train is within the lap. */
  lemma StepTrainLapPeriodic(s: TrainState, rails: seq<Rail>, speed: real)
    ensures StepTrain(s.(progress := s.progress + TotalRailLength(rails)), rails, speed).delivered
         == StepTrain(s, rails, speed).delivered
    ensures TotalRailLength(rails) > 0.0 ==>
      StepTrain(s.(progress := s.progress + TotalRailLength(rails)), rails, speed).state
        == StepTrain(s, rails, speed).state
  {
    if TotalRailLength(rails) > 0.0 {
      StepTrainLapPeriodicOnTrack(s, s.(progress := s.progress + TotalRailLength(rails)), rails, speed);
    }
  }

  /** A frame sees only where the train is within the lap: progress one whole lap
      further on gives the same deliveries and, when the train steps, the same
      next state. */
  lemma TickLapPeriodic(s: TrainState, rails: seq<Rail>, speed: real, running: bool, canRun: bool)
    ensures Tick(s.(progress := s.progress + TotalRailLength(rails)), rails, speed, running, canRun).delivered
         == Tick(s, rails, speed, running, canRun).delivered
    ensures running && canRun && TotalRailLength(rails) > 0.0 ==>
      Tick(s.(progress := s.progress + TotalRailLength(rails)), rails, speed, running, canRun).state
        == Tick(s, rails, speed, running, canRun).state
  {
    StepTrainLapPeriodic(s, rails, speed);
  }

  /** Travelling one whole lap puts a car back on the same pose. */
  lemma FullLapSamePose(rails: seq<Rail>, d: real)
    requires TotalRailLength(rails) > 0.0
    ensures |rails| > 0
    ensures SampleAt(rails, WrapInto(d + TotalRailLength(rails), TotalRailLength(rails)))
         == SampleAt(rails, WrapInto(d, TotalRailLength(rails)))
  {
    WrapIntoPeriodic(d, TotalRailLength(rails));
  }

  /** `onTrainPose`: register a listener at the end of the list. */
  function OnTrainPose(s: TrainState, listener: ListenerId): (r: TrainState)
    ensures r.listeners == s.listeners + [listener]
    ensures r.progress == s.progress && r.cars == s.cars
  {
    s.(listeners := s.listeners + [listener])
  }

  /** The function `onTrainPose` returns: drop the first registration of the listener, if any. */
  function OffTrainPose(s: TrainState, listener: ListenerId): (r: TrainState)
    ensures r.progress == s.progress && r.cars == s.cars
    ensures listener !in s.listeners ==> r == s
    ensures listener in s.listeners ==>
      |r.listeners| == |s.listeners| - 1 && multiset(r.listeners) == multiset(s.listeners) - multiset{listener}
    ensures listener in s.listeners ==>
      r.listeners == s.listeners[..IndexOf(s.listeners, listener)] + s.listeners[IndexOf(s.listeners, listener) + 1..]
  {
    var index := IndexOf(s.listeners, listener);
    if index > -1 then
      var l := s.listeners;
      assert l == l[..index] + [l[index]] + l[index + 1..];
      s.(listeners := l[..index] + l[index + 1..])
    else
      s
  }

  /** Unsubscribing right after subscribing a new listener restores the list. */
  lemma SubscribeThenUnsubscribe(s: TrainState, listener: ListenerId)
    requires listener !in s.listeners
    ensures OffTrainPose(OnTrainPose(s, listener), listener) == s
  {
    var l := s.listeners + [listener];
    assert IndexOf(l, listener) == |s.listeners|;
    assert l[..|s.listeners|] == s.listeners;
  }
}

=== FILE: trig.dfy ===
/** The transcendental part of JavaScript's `Math` as the rail code uses it.
    Nothing in the model depends on concrete angle values: `PI` is only known
    to be positive, `Sin`, `Cos` and `Atan2` are arbitrary, and `Hypot` is
    only known to be non-negative and to vanish exactly at the origin. */
module Trig {
  import opened RealArith

  /** A strictly positive real; used for every constant whose value is not fixed here. */
  type PosReal = r: real | r > 0.0 witness 1.0

  /** The value of `Math.PI`: only its sign is known. */
  const PiValue: PosReal

  /** `Math.PI`, as a plain real so that `-PI` is well typed. */
  const PI: real := PiValue

  /** `Math.PI * 2`, the period of every angle in the model. */
  const TWO_PI: real := 2.0 * PI

  /** `Math.sin`, `Math.cos` and `Math.atan2(y, x)`: passed through, never evaluated. */
  const Sin: real -> real
  const Cos: real -> real
  const Atan2: (real, real) -> real

  /** The two facts about `Math.hypot(dx, dz)` the rail code relies on. */
  ghost predicate IsHypot(f: (real, real) -> real) {
    forall dx: real, dz: real :: f(dx, dz) >= 0.0 && (f(dx, dz) == 0.0 <==> dx == 0.0 && dz == 0.0)
  }

  /** The taxicab norm: one function with the properties `IsHypot` asks for. */
  function TaxicabNorm(dx: real, dz: real): (r: real)
    ensures r >= 0.0
    ensures r == 0.0 <==> dx == 0.0 && dz == 0.0
  {
    Abs(dx) + Abs(dz)
  }

  type HypotFn = f: (real, real) -> real | IsHypot(f) witness TaxicabNorm

  /** `Math.hypot`. */
  const Hypot: HypotFn
}

=== FILE: types.dfy ===
/** The shared data model (src/types/common.ts, src/types/rail.ts). */
module Types {

  datatype Option<T> = None | Some(value: T)

  /** `[x, y, z]`; also used for an Euler rotation `[pitch, yaw, roll]`. */
  datatype Vec3 = Vec3(x: real, y: real, z: real)

  /** A placement pose: a point plus a heading in the ground plane. */
  datatype Pose = Pose(point: Vec3, theta: real)

  /** The pose of one car: `rotation` is `[pitch, yaw, roll]`. */
  datatype CarPose = CarPose(position: Vec3, rotation: Vec3)

  datatype Direction = Left | Right

  /** The six kinds of track piece; only the curve family is handed. */
  datatype RailType =
    | Straight
    | Slope
    | Station
    | Crossing
    | Curve(direction: Direction)
    | CurveSlope(direction: Direction)
  {
    /** The kinds whose track is a straight line between the two connections. */
    predicate IsStraightFamily() {
      Straight? || Slope? || Station? || Crossing?
    }

    predicate IsCurveFamily() {
      Curve? || CurveSlope?
    }
  }

  datatype Connections = Connections(start: Vec3, end: Vec3)

  /** A placed track segment. `position` is the midpoint for the straight
      family and the circle centre for curves; `rotation` is `[0, yaw, 0]`. */
  datatype Rail = Rail(id: string, railType: RailType, position: Vec3, rotation: Vec3, connections: Connections)
}
